=== FILE: README.md ===
# Poker club app: a Dafny model of its data core

The app is a React Native club organiser. It keeps every record in the
device's key-value store as JSON lists: users, tournaments, tournament RSVPs,
cash games, cash-game waitlist entries, and the signed-in user. Members
request access, an admin approves them, and approved members RSVP to
tournaments. Admins edit tournaments and cash games, delete tournaments and
manage the waitlists.

This project models that core as pure functions over an immutable store:

- `Storage` covers the store and its service. Each key is a `Slot`: absent,
  present, or holding data that cannot be parsed. A read swallows the failure
  and yields the empty default. A save overwrites one key and touches no
  other. Seeding writes the demo users and the demo tournaments, each only
  when its own list reads as empty.
- `Auth` is the session manager. It covers initial load, login (first
  credential match, status gate), logout, registration (exact-email
  uniqueness, new accounts pending) and refresh.
- `RouteGuard` is the root layout's redirect decision.
- One module per screen:
  - `TournamentDetails`: the RSVP toggle and button.
  - `TournamentManagement`: date-ordered list, cascading delete.
  - `EditTournament`: form load, level-times expansion, validated save.
  - `CashGameManagement`: edit, validated save, cancel.
  - `CashGameRsvpViewer`: waitlist and un-RSVP, which frees a seat.
  - `UserApprovals`: status filter, approve, reject.
  - `RsvpViewer`: read-only RSVP lists.
  - `RequestAccess`: form checks before registration.
- Helpers:
  - `Seqs`: JavaScript's `filter`, `find` and `map` over sequences.
  - `Text`: `trim`, `split`, `join`, `parseInt` and `toString` on strings.
  - `DateOrder`: sorting tournaments by `date_time`.
  - `Roster`: the join from RSVPs to users.

Date strings are modelled as instants in milliseconds. New ids (`Date.now()`)
and ISO timestamps are parameters.

Behaviours of the code that the contracts make explicit:

- Email comparison at login and at registration is exact string equality,
  not case-insensitive.
- Users and tournaments are seeded independently of each other.
- The `initializeDefaultData` of utils/storage.ts writes no cash games. Any seeding done by the cash-game storage functions, which are absent from the source, is not modelled.
- The tournament RSVP toggle writes whatever the count. Capacity only
  disables the button, and it never blocks a member who already has an RSVP.
- The route guard looks only at whether a user is held, never at the user's
  status, so a pending account that is held is not redirected away from
  admin screens.
- Un-RSVP on the cash-game waitlist frees a seat (capped at the table total)
  whether or not an entry was removed.

## Model

| member | source | states |
|---|---|---|
| Types.ParseStatus | types/index.ts:2 | a stored status string is a status exactly when it is one of the four names, and then names that status |
| Types.StatusRoundTrip | types/index.ts:2 | every status survives being written as its name and read back |
| Seqs.Filter | app/admin/tournament-management.tsx:35 | the kept elements are exactly those satisfying the predicate, in their original order, each with its original multiplicity |
| Seqs.Update | app/admin/user-approvals.tsx:32-34 | the `map` keeps the length, rewrites every selected element and returns every other element unchanged |
| Seqs.Repeat | app/admin/edit-tournament.tsx:54 | `Array(n).fill(x)` has exactly `n` entries, each `x` |
| Seqs.Find | contexts/AuthContext.tsx:40 | no result exactly when no element satisfies the predicate; otherwise the first element that does |
| Seqs.FindInFilter | app/tournament-details.tsx:28-40 | finding by user among one tournament's RSVPs is finding the first RSVP of that user for that tournament in the whole list |
| Text.Trim | app/admin/edit-tournament.tsx:44 | the result is a slice of the input with only white space removed at both ends and none left at either end |
| Text.TrimBlank | app/admin/edit-tournament.tsx:44 | trimming gives the empty string exactly when the input is all white space |
| Text.Split | app/admin/edit-tournament.tsx:48 | splitting gives at least one piece, no piece contains the separator, and joining the pieces with it gives the input back |
| Text.SplitJoin | app/admin/edit-tournament.tsx:48-49 | joining with a separator that no piece contains and splitting again gives the pieces back |
| Text.ParseInt | app/admin/edit-tournament.tsx:68 | blank text is not a number; a run of decimal digits parses to its value |
| Text.Join | app/admin/edit-tournament.tsx:54 | no pieces join to the empty string, one piece to itself, and several start with the first piece and the separator; splitting undoes it (Text.SplitJoin) |
| Text.IntToString | app/admin/edit-tournament.tsx:39 | a negative number is written as a minus sign and digits, any other number as digits only |
| Text.ParseIntToString | app/admin/edit-tournament.tsx:39 | a number written with `toString` parses back to the same number |
| Storage.MissingReadsEmpty | utils/storage.ts:11-19 | an absent or unreadable key reads as the empty list, or as no session user |
| Storage.SaveUsers | utils/storage.ts:21-28 | after saving, the user list reads back as the list saved and no other key has changed |
| Storage.SaveTournaments | utils/storage.ts:40-46 | after saving, the tournament list reads back as saved and no other key has changed |
| Storage.SaveRSVPs | utils/storage.ts:58-64 | after saving, the RSVP list reads back as saved and no other key has changed |
| Storage.SaveCashGames | app/admin/cash-game-management.tsx:80 | after saving, the cash-game list reads back as saved and no other key has changed |
| Storage.SaveCashGameRSVPs | app/admin/cash-game-rsvp-viewer.tsx:66-70 | after saving, the waitlist reads back as saved and no other key has changed |
| Storage.SetCurrentUser | utils/storage.ts:76-88 | the session pointer reads back as the given user; with none it is removed exactly as clearing does |
| Storage.ClearCurrentUser | utils/storage.ts:90-97 | the session pointer is gone and nothing else changes |
| Storage.DefaultUsers | utils/storage.ts:102-123 | the seed users are the administrator with id "1" and an approved member with id "2" |
| Storage.DefaultTournaments | utils/storage.ts:130-161 | two seed tournaments in date order, each for at least two players, created by the administrator |
| Storage.InitializeDefaultData | utils/storage.ts:99-165 | users are seeded only when their list reads empty and tournaments only when theirs does, independently; afterwards both lists are non-empty and no other key changes |
| Storage.InitializeIdempotent | utils/storage.ts:99-165 | a second seeding run changes nothing, whatever clock it reads |
| Auth.Initial | contexts/AuthContext.tsx:18-19 | the provider starts with no user held and loading |
| Auth.LoadUser | contexts/AuthContext.tsx:25-35 | startup seeds the store, holds the user the session pointer names, and stops loading |
| Auth.Login | contexts/AuthContext.tsx:37-61 | no credential match fails with the invalid-credentials message; the first match decides: pending and rejected fail with their messages and change nothing, other accounts become the session user |
| Auth.LoginGate | contexts/AuthContext.tsx:46-56 | a successful login holds a stored approved or admin user with exactly the given credentials, and stores it as the session pointer |
| Auth.Logout | contexts/AuthContext.tsx:63-70 | no user is held, the session pointer is removed, and nothing else in the store changes |
| Auth.NewUser | contexts/AuthContext.tsx:81-86 | the new account is pending, carries the given id, time, name, phone and nickname, and its credentials are the registration's email and password |
| Auth.Register | contexts/AuthContext.tsx:72-95 | an email already stored is refused and nothing changes; otherwise exactly one pending account is appended after all existing users and nothing else changes |
| Auth.RegisterThenLoginPending | contexts/AuthContext.tsx:81-90 | right after registering, logging in with the new credentials fails as pending approval |
| Auth.RefreshUser | contexts/AuthContext.tsx:97-106 | the held user is replaced by the first stored record with its id; with no user held or no such record nothing changes |
| RouteGuard.Guard | app/_layout.tsx:28-67 | while not ready or loading nothing happens; a visitor with no user is sent to welcome exactly when the first segment is a protected root; a held user is sent home exactly when it is an auth screen |
| RouteGuard.GuardReadsFirstSegment | app/_layout.tsx:39-42 | route segments after the first never change the decision |
| RouteGuard.GuardIgnoresStatus | app/_layout.tsx:53-64 | every held user is treated alike whatever the status, and none is redirected away from admin screens |
| Roster.TournamentRsvps | app/tournament-details.tsx:28 | exactly the RSVPs for the tournament, in stored order and with their stored copy counts |
| Roster.CashGameRsvps | app/admin/cash-game-rsvp-viewer.tsx:43 | exactly the waitlist entries for the game, in stored order and with their stored copy counts |
| Roster.UsersWithIds | app/tournament-details.tsx:33 | exactly the users whose id is among the ids, in user-list order, each as often as stored however many ids name it; no repeats when the user list has none |
| Roster.UserIds | app/tournament-details.tsx:32 | one user id per entry, and an id is listed exactly when some entry carries it |
| Roster.TournamentPlayers | app/tournament-details.tsx:31-33 | the players listed are exactly the stored users named by an RSVP for the tournament, in user-list order with their stored copy counts, without repeats when the user list has none |
| Roster.CashGamePlayers | app/admin/cash-game-rsvp-viewer.tsx:43-47 | the players listed are exactly the stored users named by a waitlist entry for the game, in user-list order with their stored copy counts, without repeats when the user list has none |
| DateOrder.Insert | app/admin/tournament-management.tsx:19-21 | inserting into a date-ordered list keeps it ordered and adds exactly the one tournament |
| DateOrder.SortByDate | app/admin/tournament-management.tsx:19-21 | the result is in ascending date order and is a permutation of the input |
| DateOrder.FilterKeepsSorted | app/admin/tournament-management.tsx:35 | removing tournaments from a date-ordered list keeps it date-ordered |
| TournamentDetails.LoadData | app/tournament-details.tsx:22-35 | the page shows the first stored tournament with the route id (none exactly when there is none), exactly that tournament's RSVPs in order with their stored copy counts, and exactly the users they name with their stored copy counts |
| TournamentDetails.TournamentById | app/tournament-details.tsx:24 | the tournament found is the first one carrying the id, and none exactly when no tournament carries it |
| TournamentDetails.Toggle | app/tournament-details.tsx:37-58 | nothing is written without a user and a tournament; without an RSVP of the user for the tournament one new RSVP is appended; with one, the first is removed together with every RSVP sharing its id, and the rest keep their order and copy counts |
| TournamentDetails.ToggleRemoves | app/tournament-details.tsx:40-45 | the RSVP the page finds is the one whose id is filtered out |
| TournamentDetails.ToggleTwiceRestores | app/tournament-details.tsx:37-58 | joining and then cancelling, with a fresh id for the new RSVP, restores the RSVP list exactly |
| TournamentDetails.AddedIsFirst | app/tournament-details.tsx:40 | after an RSVP is appended, the page finds that RSVP for the user |
| TournamentDetails.RemoveAdded | app/tournament-details.tsx:45 | filtering out a fresh id removes exactly the RSVP appended with it |
| TournamentDetails.ToggleFlips | app/tournament-details.tsx:37-58 | with at most one RSVP per user and tournament, the toggle flips whether the user has an RSVP and keeps at most one per pair |
| TournamentDetails.RemovalFlips | app/tournament-details.tsx:45 | removing the user's RSVP leaves none for that user and tournament and keeps at most one per pair |
| TournamentDetails.AppendFlips | app/tournament-details.tsx:46-53 | appending an RSVP for a pair that had none creates one and keeps at most one per pair |
| TournamentDetails.IsRsvpd | app/tournament-details.tsx:60 | the user counts as having an RSVP exactly when the lookup the toggle makes finds one of theirs |
| TournamentDetails.IsFull | app/tournament-details.tsx:61 | a missing tournament counts as full; with no RSVPs a tournament is full only when its capacity is at most 0 |
| TournamentDetails.JoinAddsOne | app/tournament-details.tsx:46-61 | a join adds exactly one RSVP to the tournament's list, so it is full afterwards exactly when the count plus one reaches capacity |
| TournamentDetails.Button | app/tournament-details.tsx:74-163 | hidden while no tournament is loaded; shown only to approved members; a member with an RSVP can always cancel; "full" exactly when the count has reached capacity and the member has no RSVP; "join" otherwise |
| TournamentDetails.HandleRsvp | app/tournament-details.tsx:37-58 | with no user or no tournament the store is unchanged; otherwise the toggled RSVP list is written and nothing else changes |
| TournamentManagement.LoadTournaments | app/admin/tournament-management.tsx:17-23 | the list shown is the stored tournaments in ascending date order |
| TournamentManagement.HandleDelete | app/admin/tournament-management.tsx:25-46 | every tournament with the id is gone and every other one kept with its multiplicity, in date order; every RSVP naming it is gone and the other RSVPs keep their order and copy counts; no other key changes |
| TournamentManagement.DeleteUnknownId | app/admin/tournament-management.tsx:34-41 | deleting an id nothing carries writes back the date-ordered list and the same RSVPs |
| EditTournament.Pieces | app/admin/edit-tournament.tsx:48-49 | every entry of a comma-separated field is non-empty, has no white space at either end and contains no comma |
| EditTournament.SplitRepeated | app/admin/edit-tournament.tsx:54 | `n` copies of a time joined with ", " split on ',' into the time and `n - 1` copies of it with one leading space |
| EditTournament.RepeatedPieces | app/admin/edit-tournament.tsx:52-55 | the entries of `n` copies of a time joined with ", " are those `n` copies |
| EditTournament.TrimRepeated | app/admin/edit-tournament.tsx:48 | trimming the split copies gives `n` copies of the time |
| EditTournament.ProcessLevelTimes | app/admin/edit-tournament.tsx:43-58 | a blank field becomes ""; a single time with more than one blind level becomes that time once per level joined by ", ", whose entries are those copies; anything else is kept as typed |
| EditTournament.LoadForm | app/admin/edit-tournament.tsx:28-41 | the max-players text the form shows parses back to the stored value |
| EditTournament.HandleSave | app/admin/edit-tournament.tsx:60-91 | the missing-fields error exactly when a required field is empty; the max-players error exactly when the rest is filled but max players is not an integer of at least 2; a valid form is saved exactly when a tournament was loaded; a valid save replaces each tournament with the loaded id by the edited one, keeping its id, creator and unedited fields, and changes nothing else |
| EditTournament.UnchangedFormSaves | app/admin/edit-tournament.tsx:60-91 | opening a complete tournament and saving without changes succeeds and keeps its max players |
| CashGameManagement.HandleEdit | app/admin/cash-game-management.tsx:28-35 | the form edits that game, and its number fields parse back to the game's counts |
| CashGameManagement.HandleCancel | app/admin/cash-game-management.tsx:91-98 | nothing is being edited and every field is empty |
| CashGameManagement.FirstFailure | app/admin/cash-game-management.tsx:44-62 | the checks run in order (tables at least 0, seats open at least 0, total seats at least 1, seats open at most total); the message is that of the first one that fails, a number that did not parse failing its check, and there is none exactly when all pass |
| CashGameManagement.ApplyEdit | app/admin/cash-game-management.tsx:66-81 | the write of a valid save: the games with the edited id take the stakes, the parsed counts and the update time, keep id and game type, and lie within the seat bounds; other games and other keys are unchanged |
| CashGameManagement.HandleSave | app/admin/cash-game-management.tsx:37-89 | nothing happens without a game being edited; the first failing check (tables, seats open, total seats, seats against total) decides the message, and a form passing all checks is saved; a valid save rewrites only that game within the seat bounds, changes no other key, and clears the form |
| CashGameManagement.SaveKeepsSeatsValid | app/admin/cash-game-management.tsx:44-62 | if every stored game is within the table and seat bounds before a save, every game is after it |
| CashGameManagement.EditThenSave | app/admin/cash-game-management.tsx:28-89 | opening a valid game and saving at once is accepted and changes only its update time |
| CashGameManagement.GameTypeName | app/admin/cash-game-management.tsx:100-102 | the label is "Hold'em" exactly for "holdem" and "PLO" for everything else |
| CashGameRsvpViewer.LoadData | app/admin/cash-game-rsvp-viewer.tsx:28-38 | the first game is selected when there is one, none otherwise |
| CashGameRsvpViewer.LoadRsvps | app/admin/cash-game-rsvp-viewer.tsx:40-49 | exactly the selected game's waitlist entries in order and the users they name, each with its stored copy count; nothing with no game selected |
| CashGameRsvpViewer.HandleUnRsvp | app/admin/cash-game-rsvp-viewer.tsx:66-83 | every entry of that user for the game goes and the rest keep their order and copy counts; the game gains one open seat capped at its total, other games are untouched, and no other key changes |
| CashGameRsvpViewer.UnRsvpKeepsSeatBound | app/admin/cash-game-rsvp-viewer.tsx:74-80 | open seats stay between zero and the total seats |
| CashGameRsvpViewer.UnRsvpWithoutEntry | app/admin/cash-game-rsvp-viewer.tsx:66-83 | removing a user who is not on the waitlist changes no entry but still frees a seat |
| UserApprovals.SetStatus | app/admin/user-approvals.tsx:32-34 | users with the id get the new status, every other user is unchanged, and the list keeps its length and order |
| UserApprovals.SetStatusIdempotent | app/admin/user-approvals.tsx:32-34 | setting the same status twice is setting it once |
| UserApprovals.HandleApprove | app/admin/user-approvals.tsx:23-41 | the user list is written back with the id approved and no other key changes |
| UserApprovals.HandleReject | app/admin/user-approvals.tsx:43-62 | the user list is written back with the id rejected and no other key changes |
| UserApprovals.FilteredUsers | app/admin/user-approvals.tsx:64 | exactly the users with the chosen status, never an admin, in stored order with their stored copy counts |
| UserApprovals.ActionsOnlyWhenPending | app/admin/user-approvals.tsx:139 | approve and reject appear on every account listed under the pending filter and on none under any other filter |
| UserApprovals.ApproveMovesBetweenLists | app/admin/user-approvals.tsx:64 | approving a pending user takes it off the pending list and puts it on the approved list |
| UserApprovals.ApproveThenLogin | app/admin/user-approvals.tsx:32-35 | a pending account cannot log in; after approval the same credentials log in and hold the approved record |
| RsvpViewer.LoadData | app/admin/rsvp-viewer.tsx:28-40 | tournaments in date order, the earliest selected when there is one, "" otherwise |
| RsvpViewer.LoadRsvps | app/admin/rsvp-viewer.tsx:42-50 | exactly the selected tournament's RSVPs in order and the users they name, each with its stored copy count; nothing with none selected |
| RequestAccess.ErrorText | app/request-access.tsx:54 | the shown error is the registration's own message, or the fallback when it carries none |
| RequestAccess.HandleSubmit | app/request-access.tsx:19-56 | an empty field and then an email without '@' are refused before registration; otherwise the request submits exactly when registration succeeds, and otherwise shows its error |
| RequestAccess.DuplicateEmailShown | app/request-access.tsx:33-54 | a request with an email already registered shows the email-taken error and changes nothing |

## Left out

- Rendering, styles, navigation calls and the confirmation dialogs are left out. A handler is modelled as its confirmed action.
- AsyncStorage is left out. Its asynchrony, JSON encoding and write failures are not modelled. Data that fails to parse is the `Malformed` slot. Stored JSON that parses to something other than a list is not modelled.
- The `catch` branches of login and registration, with the messages "An error occurred during login" and "An error occurred during registration", are left out. The storage service swallows read failures, and write failures are not modelled.
- Clocks and id generation (`Date.now()`, `new Date().toISOString()`) are left out. Ids and timestamps are parameters.
- Date parsing and formatting are left out. `date_time` is an instant in milliseconds, and the editor's date picker yields that instant directly.
- Text.ParseInt: a leading "0x" hexadecimal prefix is not modelled. Decimal text is parsed with JavaScript's rules: leading white space, an optional sign, and the longest digit prefix.
- Text.Trim: the ASCII white space, no-break space, byte-order mark and the two Unicode line and paragraph separators are trimmed. The other Unicode space separators (category Zs) that JavaScript's `trim` also removes are not modelled.
- Concurrency is left out: interleaved async handlers and screen state that is stale against the store. Each screen's in-memory list is taken to be the store's list at the moment of the action.
- EditTournament.HandleSave: the route id is taken to be the loaded tournament's id. This is the case whenever the tournament was loaded.
- DateOrder.SortByDate: stability of the sort for equal dates is not stated. The contract gives order and permutation only.
- The login screen's own empty-field check (app/login.tsx) is not part of this model.
- The cash-game record and its storage functions are absent from types/index.ts and utils/storage.ts. They are modelled from their use in the two cash-game screens, in the same form as the other collections.
- The home screen, the profile screen and the admin tab are not part of this model.
- Text.ParseIntToString: JavaScript numbers are doubles, and the model uses unbounded integers. `toString` switches to exponent form from 10^21 ("1e+21", which `parseInt` reads back as 1), and integers above 2^53 are not exact. The round trip is stated for every integer; the program's own round trip holds only for safe integers.
- EditTournament.LoadForm: the pre-filled counts read back as the stored ones for every integer in the model. In the program this holds only for safe integers below 10^21, for the same reason as Text.ParseIntToString.
- CashGameManagement.HandleEdit: the pre-filled tables and seat counts read back as the stored ones for every integer in the model. In the program this holds only for safe integers below 10^21, for the same reason as Text.ParseIntToString.

=== FILE: auth.dfy ===
/** The session manager: the user held for the lifetime of the app, the
    loading flag, and the login / register / logout / refresh transitions over
    the store. Emails and passwords are compared by exact string equality. */
module Auth {
  import opened Wrappers
  import opened Seqs
  import opened Types
  import opened Storage

  /** The store together with the held user and whether the initial load is
      still running. */
  datatype AuthState = AuthState(store: Store, user: Option<User>, loading: bool)

  datatype Outcome = Success | Failure(error: string)

  /** The fields a new member supplies; id, status and creation time are added. */
  datatype Registration = Registration(full_name: string, email: string, phone: string, nickname: string, password: string)

  const InvalidCredentials := "Invalid email or password"
  const PendingApproval := "Your account is pending approval."
  const AccountRejected := "Your account has been rejected."
  const EmailTaken := "Email already registered"

  /** The provider's state before its first load: no user, loading. */
  function Initial(s: Store): (st: AuthState)
    ensures st.user.None? && st.loading && st.store == s
  {
    AuthState(s, None, true)
  }

  /** Startup: seed the store if needed, hold whatever user the session
      pointer names, and stop loading. */
  function LoadUser(st: AuthState, nowMillis: int, now: string): (r: AuthState)
    ensures r.store == InitializeDefaultData(st.store, nowMillis, now)
    ensures r.user == GetCurrentUser(st.store)
    ensures !r.loading
  {
    var s := InitializeDefaultData(st.store, nowMillis, now);
    AuthState(s, GetCurrentUser(s), false)
  }

  predicate HasCredentials(u: User, email: string, password: string) {
    u.email == email && u.password == password
  }

  function CredentialsMatch(email: string, password: string): User -> bool {
    (u: User) => HasCredentials(u, email, password)
  }

  /** `users[i]` is the first stored user whose email and password are the given ones. */
  predicate FirstMatch(users: seq<User>, i: int, email: string, password: string) {
    0 <= i < |users| && HasCredentials(users[i], email, password)
    && forall j :: 0 <= j < i ==> !HasCredentials(users[j], email, password)
  }

  /** Login: the first stored user with exactly these credentials decides. No
      match, a pending account or a rejected account fails and changes
      nothing; an approved or admin account becomes the session pointer and
      the held user. */
  function Login(st: AuthState, email: string, password: string): (r: (Outcome, AuthState))
    ensures (forall u :: u in GetUsers(st.store) ==> !HasCredentials(u, email, password))
            ==> r == (Failure(InvalidCredentials), st)
    ensures forall i :: FirstMatch(GetUsers(st.store), i, email, password) ==>
      var u := GetUsers(st.store)[i];
      match u.status
      case Pending => r == (Failure(PendingApproval), st)
      case Rejected => r == (Failure(AccountRejected), st)
      case _ => r == (Success, st.(store := SetCurrentUser(st.store, Some(u)), user := Some(u)))
  {
    var users := GetUsers(st.store);
    var found := Find(users, CredentialsMatch(email, password));
    if found.None? then
      (Failure(InvalidCredentials), st)
    else
      var u := found.value;
      if u.status == Pending then (Failure(PendingApproval), st)
      else if u.status == Rejected then (Failure(AccountRejected), st)
      else (Success, st.(store := SetCurrentUser(st.store, Some(u)), user := Some(u)))
  }

  /** Only an approved or admin account ever logs in, and it is one whose
      credentials are exactly the ones given. */
  lemma LoginGate(st: AuthState, email: string, password: string)
    ensures var (outcome, st') := Login(st, email, password);
      outcome.Success? ==>
        && st'.user.Some?
        && st'.user.value in GetUsers(st.store)
        && HasCredentials(st'.user.value, email, password)
        && st'.user.value.status in {Approved, Admin}
        && GetCurrentUser(st'.store) == st'.user
  {
  }

  /** Log out: the session pointer is removed and no user is held. */
  function Logout(st: AuthState): (r: AuthState)
    ensures r.user.None?
    ensures GetCurrentUser(r.store) == None && r.store.currentUser.Absent?
    ensures r.store.(currentUser := st.store.currentUser) == st.store
    ensures r.loading == st.loading
  {
    st.(store := SetCurrentUser(st.store, None), user := None)
  }

  /** The record a successful registration appends. */
  function NewUser(data: Registration, id: string, now: string): (u: User)
    ensures u.id == id && u.created_at == now && u.status == Pending
    ensures u.full_name == data.full_name && u.phone == data.phone && u.nickname == data.nickname
    ensures HasCredentials(u, data.email, data.password)
  {
    User(id, data.full_name, data.email, data.phone, data.nickname, data.password, Pending, now)
  }

  function SameEmail(email: string): User -> bool {
    (u: User) => u.email == email
  }

  /** Registration: an email already used by any stored user is refused and
      nothing changes; otherwise one pending user is appended after all the
      existing ones and the user list is written back. The held user and the
      session pointer are not touched. */
  function Register(st: AuthState, data: Registration, id: string, now: string): (r: (Outcome, AuthState))
    ensures (exists u :: u in GetUsers(st.store) && u.email == data.email)
            ==> r == (Failure(EmailTaken), st)
    ensures (forall u :: u in GetUsers(st.store) ==> u.email != data.email) ==>
      && r.0 == Success
      && GetUsers(r.1.store) == GetUsers(st.store) + [User(id, data.full_name, data.email, data.phone,
                                                          data.nickname, data.password, Pending, now)]
      && r.1.store.(users := st.store.users) == st.store
      && r.1.user == st.user && r.1.loading == st.loading
  {
    var users := GetUsers(st.store);
    if Find(users, SameEmail(data.email)).Some? then
      (Failure(EmailTaken), st)
    else
      (Success, st.(store := SaveUsers(st.store, users + [NewUser(data, id, now)])))
  }

  /** A fresh registration cannot log in until it is approved: its credentials
      reach the new pending record and nothing before it. */
  lemma RegisterThenLoginPending(st: AuthState, data: Registration, id: string, now: string)
    requires forall u :: u in GetUsers(st.store) ==> u.email != data.email
    ensures var st' := Register(st, data, id, now).1;
      Login(st', data.email, data.password) == (Failure(PendingApproval), st')
  {
    var st' := Register(st, data, id, now).1;
    var users := GetUsers(st.store);
    var users' := GetUsers(st'.store);
    assert users'[|users|] == NewUser(data, id, now);
    assert forall j :: 0 <= j < |users| ==> users'[j] == users[j] && users[j] in users;
    assert FirstMatch(users', |users|, data.email, data.password);
  }

  function SameId(id: string): User -> bool {
    (u: User) => u.id == id
  }

  /** Refresh: with a user held, re-read that user's record by id and hold and
      store it; with no user held, or no stored record of that id, nothing
      changes. */
  function RefreshUser(st: AuthState): (r: AuthState)
    ensures st.user.None? ==> r == st
    ensures st.user.Some? && (forall u :: u in GetUsers(st.store) ==> u.id != st.user.value.id) ==> r == st
    ensures forall i :: (st.user.Some? && 0 <= i < |GetUsers(st.store)|
                         && GetUsers(st.store)[i].id == st.user.value.id
                         && forall j :: 0 <= j < i ==> GetUsers(st.store)[j].id != st.user.value.id) ==>
        var u := GetUsers(st.store)[i];
        r == st.(store := SetCurrentUser(st.store, Some(u)), user := Some(u))
  {
    match st.user
    case None => st
    case Some(held) =>
      match Find(GetUsers(st.store), SameId(held.id))
      case None => st
      case Some(u) => st.(store := SetCurrentUser(st.store, Some(u)), user := Some(u))
  }
}

=== FILE: cash_game_management.dfy ===
/** The admin cash-game editor: a form filled from one game, a save that
    validates tables and seats before updating that game, and cancel. */
module CashGameManagement {
  import opened Wrappers
  import opened Seqs
  import opened Text
  import opened Types
  import opened Storage

  /** The form. `editingId` is the game being edited, if any; the numeric
      fields are the text the admin typed. */
  datatype CashForm = CashForm(editingId: Option<string>, stakes: string, tablesRunning: string,
                               seatsOpen: string, totalSeats: string)

  const ClearedForm := CashForm(None, "", "", "", "")

  /** The table and seat bounds a saved game satisfies. */
  predicate SeatsValid(g: CashGame) {
    g.tables_running >= 0 && 0 <= g.seats_open <= g.total_seats && g.total_seats >= 1
  }

  /** Start editing a game: the form shows its current values. */
  function HandleEdit(g: CashGame): (f: CashForm)
    ensures f.editingId == Some(g.id) && f.stakes == g.stakes
    ensures ParseInt(f.tablesRunning) == Some(g.tables_running)
    ensures ParseInt(f.seatsOpen) == Some(g.seats_open)
    ensures ParseInt(f.totalSeats) == Some(g.total_seats)
  {
    ParseIntToString(g.tables_running);
    ParseIntToString(g.seats_open);
    ParseIntToString(g.total_seats);
    CashForm(Some(g.id), g.stakes, IntToString(g.tables_running), IntToString(g.seats_open),
             IntToString(g.total_seats))
  }

  /** Cancel: nothing is being edited and every field is empty. */
  function HandleCancel(): (r: CashForm)
    ensures r.editingId.None? && r.stakes == "" && r.tablesRunning == "" && r.seatsOpen == "" && r.totalSeats == ""
  {
    ClearedForm
  }

  /** A number that parsed and is at least `min`. */
  predicate AtLeast(n: Option<int>, min: int) {
    n.Some? && n.value >= min
  }

  const BadTables := "Tables running must be a valid number"
  const BadSeatsOpen := "Seats open must be a valid number"
  const BadTotalSeats := "Total seats must be at least 1"
  const SeatsExceedTotal := "Seats open cannot exceed total seats"

  datatype CashSaveResult = NothingEdited | Refused(message: string) | Saved(store: Store, form: CashForm)

  /** Whether a form names a game to edit (an empty id counts as none). */
  predicate Editing(f: CashForm) {
    f.editingId.Some? && f.editingId.value != ""
  }

  function WithId(id: string): CashGame -> bool {
    (g: CashGame) => g.id == id
  }

  /** The message of the first failing check on the parsed counts: tables,
      then seats open, then total seats, then seats open against total; none
      when all pass. */
  function FirstFailure(tables: Option<int>, open: Option<int>, total: Option<int>): (m: Option<string>)
    ensures m == Some(BadTables) <==> !AtLeast(tables, 0)
    ensures m == Some(BadSeatsOpen) <==> AtLeast(tables, 0) && !AtLeast(open, 0)
    ensures m == Some(BadTotalSeats) <==> AtLeast(tables, 0) && AtLeast(open, 0) && !AtLeast(total, 1)
    ensures m == Some(SeatsExceedTotal) <==>
      AtLeast(tables, 0) && AtLeast(open, 0) && AtLeast(total, 1) && open.value > total.value
    ensures m.None? <==> AtLeast(tables, 0) && AtLeast(open, 0) && AtLeast(total, 1) && open.value <= total.value
  {
    if !AtLeast(tables, 0) then Some(BadTables)
    else if !AtLeast(open, 0) then Some(BadSeatsOpen)
    else if !AtLeast(total, 1) then Some(BadTotalSeats)
    else if open.value > total.value then Some(SeatsExceedTotal)
    else None
  }

  /** Save: with a game being edited, the first failing check on the typed
      counts decides the message; a form that passes them all rewrites the
      edited game's stakes, counts and update time, writes the list back and
      clears the form. */
  function HandleSave(s: Store, f: CashForm, now: string): (r: CashSaveResult)
    ensures r.NothingEdited? <==> !Editing(f)
    ensures var m := FirstFailure(ParseInt(f.tablesRunning), ParseInt(f.seatsOpen), ParseInt(f.totalSeats));
      Editing(f) ==> (r.Refused? <==> m.Some?) && (m.Some? ==> r == Refused(m.value)) && (r.Saved? <==> m.None?)
    ensures r.Saved? ==>
      var before := GetCashGames(s);
      var after := GetCashGames(r.store);
      && r.form == ClearedForm
      && r.store.(cashGames := s.cashGames) == s
      && |after| == |before|
      && (forall i :: 0 <= i < |before| && before[i].id != f.editingId.value ==> after[i] == before[i])
      && (forall i :: 0 <= i < |before| && before[i].id == f.editingId.value ==>
            RewriteOf(after[i], before[i], f.stakes, ParseInt(f.tablesRunning), ParseInt(f.seatsOpen),
                      ParseInt(f.totalSeats), now))
  {
    if !Editing(f) then NothingEdited
    else
      var tables := ParseInt(f.tablesRunning);
      var open := ParseInt(f.seatsOpen);
      var total := ParseInt(f.totalSeats);
      match FirstFailure(tables, open, total)
      case Some(message) => Refused(message)
      case None => Saved(ApplyEdit(s, f.editingId.value, f.stakes, tables.value, open.value, total.value, now),
                         ClearedForm)
  }

  /** The write of a valid save: the games with the edited id are rewritten
      with the parsed counts, every other game and every other key stays. */
  function ApplyEdit(s: Store, id: string, stakes: string, tables: int, open: int, total: int, now: string)
    : (r: Store)
    requires tables >= 0 && 0 <= open <= total && total >= 1
    ensures var before := GetCashGames(s);
      var after := GetCashGames(r);
      && r.(cashGames := s.cashGames) == s
      && |after| == |before|
      && (forall i :: 0 <= i < |before| && before[i].id != id ==> after[i] == before[i])
      && (forall i :: 0 <= i < |before| && before[i].id == id ==>
            RewriteOf(after[i], before[i], stakes, Some(tables), Some(open), Some(total), now))
  {
    RewriteIsEdit(stakes, tables, open, total, now);
    SaveCashGames(s, Update(GetCashGames(s), WithId(id), Rewrite(stakes, tables, open, total, now)))
  }

  /** The edit applied to one game: the form's stakes and counts and the
      update time; id and game type are kept. */
  function Rewrite(stakes: string, tables: int, open: int, total: int, now: string): CashGame -> CashGame {
    (g: CashGame) => g.(stakes := stakes, tables_running := tables, seats_open := open,
                        total_seats := total, updated_at := now)
  }

  /** `after` is `before` as an edit with these stakes and parsed counts
      rewrites it. */
  predicate RewriteOf(after: CashGame, before: CashGame, stakes: string, tables: Option<int>,
                      open: Option<int>, total: Option<int>, now: string) {
    && SeatsValid(after)
    && after.id == before.id && after.game_type == before.game_type
    && after.stakes == stakes && after.updated_at == now
    && Some(after.tables_running) == tables
    && Some(after.seats_open) == open
    && Some(after.total_seats) == total
  }

  /** With valid parsed counts, every game the edit rewrites becomes a game
      within the seat bounds carrying the form's values. */
  lemma RewriteIsEdit(stakes: string, tables: int, open: int, total: int, now: string)
    requires tables >= 0 && 0 <= open <= total && total >= 1
    ensures forall g: CashGame ::
      RewriteOf(Rewrite(stakes, tables, open, total, now)(g), g, stakes, Some(tables), Some(open), Some(total), now)
  {
  }

  /** Saving never stores a game outside the seat bounds: if every stored
      game was within them, every game is after a save. */
  lemma SaveKeepsSeatsValid(s: Store, f: CashForm, now: string)
    requires forall g :: g in GetCashGames(s) ==> SeatsValid(g)
    ensures var r := HandleSave(s, f, now);
      r.Saved? ==> forall g :: g in GetCashGames(r.store) ==> SeatsValid(g)
  {
    var r := HandleSave(s, f, now);
    if r.Saved? {
      var before := GetCashGames(s);
      var after := GetCashGames(r.store);
      forall g | g in after ensures SeatsValid(g) {
        var i :| 0 <= i < |after| && after[i] == g;
        assert before[i] in before;
      }
    }
  }

  /** Opening a valid game in the editor and saving at once is accepted and
      changes only that game's update time. */
  lemma EditThenSave(s: Store, g: CashGame, now: string)
    requires SeatsValid(g) && g.id != ""
    ensures var r := HandleSave(s, HandleEdit(g), now);
      r.Saved? && forall i :: 0 <= i < |GetCashGames(s)| && GetCashGames(s)[i] == g ==>
        GetCashGames(r.store)[i] == g.(updated_at := now)
  {
    var f := HandleEdit(g);
    var r := HandleSave(s, f, now);
    assert Editing(f);
    assert r.Saved?;
    forall i | 0 <= i < |GetCashGames(s)| && GetCashGames(s)[i] == g
      ensures GetCashGames(r.store)[i] == g.(updated_at := now)
    {
      var a := GetCashGames(r.store)[i];
      assert RewriteOf(a, g, f.stakes, ParseInt(f.tablesRunning), ParseInt(f.seatsOpen),
                       ParseInt(f.totalSeats), now);
      assert a.tables_running == g.tables_running && a.seats_open == g.seats_open
          && a.total_seats == g.total_seats;
    }
  }

  /** The label shown for a game type. */
  function GameTypeName(gameType: string): (name: string)
    ensures name in {"Hold'em", "PLO"}
    ensures name == "Hold'em" <==> gameType == "holdem"
  {
    if gameType == "holdem" then "Hold'em" else "PLO"
  }
}

=== FILE: cash_game_rsvp_viewer.dfy ===
/** The admin cash-game waitlist viewer: pick a game, list the users on its
    waitlist, and remove one, which also frees a seat. */
module CashGameRsvpViewer {
  import opened Seqs
  import opened Types
  import opened Storage
  import opened Roster

  /** The screen's state after loading: the games, the selected game id
      ("" for none) and the users. */
  datatype ViewerData = ViewerData(games: seq<CashGame>, selected: string, users: seq<User>)

  /** On load the first game is selected, if there is one. */
  function LoadData(s: Store): (v: ViewerData)
    ensures v.games == GetCashGames(s) && v.users == GetUsers(s)
    ensures |v.games| > 0 ==> v.selected == v.games[0].id
    ensures |v.games| == 0 ==> v.selected == ""
  {
    var games := GetCashGames(s);
    ViewerData(games, if |games| > 0 then games[0].id else "", GetUsers(s))
  }

  datatype Waitlist = Waitlist(rsvps: seq<CashGameRSVP>, players: seq<User>)

  /** The waitlist of the selected game and the users on it, in user-list
      order; with no game selected nothing is loaded. */
  function LoadRsvps(s: Store, v: ViewerData): (w: Waitlist)
    ensures v.selected == "" ==> w == Waitlist([], [])
    ensures v.selected != "" ==>
      && (forall x :: x in w.rsvps <==> x in GetCashGameRSVPs(s) && x.cash_game_id == v.selected)
      && (forall x :: multiset(w.rsvps)[x] ==
                      if x.cash_game_id == v.selected then multiset(GetCashGameRSVPs(s))[x] else 0)
      && Subseq(w.rsvps, GetCashGameRSVPs(s))
      && (forall u :: u in w.players <==>
            u in v.users && Waitlisted(GetCashGameRSVPs(s), v.selected, u))
      && (forall u :: multiset(w.players)[u] ==
                      (if Waitlisted(GetCashGameRSVPs(s), v.selected, u) then multiset(v.users)[u] else 0))
      && Subseq(w.players, v.users)
  {
    if v.selected == "" then Waitlist([], [])
    else
      Waitlist(CashGameRsvps(GetCashGameRSVPs(s), v.selected),
               CashGamePlayers(v.users, GetCashGameRSVPs(s), v.selected))
  }

  function NotEntryOf(userId: string, gameId: string): CashGameRSVP -> bool {
    (x: CashGameRSVP) => !(x.user_id == userId && x.cash_game_id == gameId)
  }

  function IsGame(id: string): CashGame -> bool {
    (g: CashGame) => g.id == id
  }

  function FreeSeat(now: string): CashGame -> CashGame {
    (g: CashGame) => g.(seats_open := if g.seats_open + 1 < g.total_seats then g.seats_open + 1 else g.total_seats,
                        updated_at := now)
  }

  /** A confirmed removal: every waitlist entry of this user for the selected
      game goes, the others stay in order; then the selected game gains one
      open seat, capped at its total, whether or not an entry was removed. */
  function HandleUnRsvp(s: Store, userId: string, selected: string, now: string): (r: Store)
    ensures forall x :: x in GetCashGameRSVPs(r) <==>
      x in GetCashGameRSVPs(s) && !(x.user_id == userId && x.cash_game_id == selected)
    ensures forall x :: multiset(GetCashGameRSVPs(r))[x] ==
                        (if x.user_id == userId && x.cash_game_id == selected then 0 else multiset(GetCashGameRSVPs(s))[x])
    ensures Subseq(GetCashGameRSVPs(r), GetCashGameRSVPs(s))
    ensures |GetCashGames(r)| == |GetCashGames(s)|
    ensures forall i :: 0 <= i < |GetCashGames(s)| && GetCashGames(s)[i].id != selected ==>
      GetCashGames(r)[i] == GetCashGames(s)[i]
    ensures forall i :: 0 <= i < |GetCashGames(s)| && GetCashGames(s)[i].id == selected ==>
      var g, g' := GetCashGames(s)[i], GetCashGames(r)[i];
      && g' == g.(seats_open := g'.seats_open, updated_at := now)
      && g'.seats_open <= g.total_seats
      && (g'.seats_open == g.seats_open + 1 || g'.seats_open == g.total_seats)
      && (g.seats_open < g.total_seats ==> g'.seats_open == g.seats_open + 1)
    ensures r.(cashGameRsvps := s.cashGameRsvps, cashGames := s.cashGames) == s
  {
    var s1 := SaveCashGameRSVPs(s, Filter(GetCashGameRSVPs(s), NotEntryOf(userId, selected)));
    SaveCashGames(s1, Update(GetCashGames(s1), IsGame(selected), FreeSeat(now)))
  }

  /** The seat bound `0 <= seats_open <= total_seats` survives a removal. */
  lemma UnRsvpKeepsSeatBound(s: Store, userId: string, selected: string, now: string)
    requires forall g :: g in GetCashGames(s) ==> 0 <= g.seats_open <= g.total_seats
    ensures forall g :: g in GetCashGames(HandleUnRsvp(s, userId, selected, now)) ==> 0 <= g.seats_open <= g.total_seats
  {
    var before := GetCashGames(s);
    var after := GetCashGames(HandleUnRsvp(s, userId, selected, now));
    forall g | g in after ensures 0 <= g.seats_open <= g.total_seats {
      var i :| 0 <= i < |after| && after[i] == g;
      assert before[i] in before;
    }
  }

  /** Removing a user who is not on the waitlist changes no entry but still
      frees a seat in a game that is not already all open. */
  lemma UnRsvpWithoutEntry(s: Store, userId: string, selected: string, now: string, i: int)
    requires forall x :: x in GetCashGameRSVPs(s) ==> !(x.user_id == userId && x.cash_game_id == selected)
    requires 0 <= i < |GetCashGames(s)| && GetCashGames(s)[i].id == selected
    requires GetCashGames(s)[i].seats_open < GetCashGames(s)[i].total_seats
    ensures var r := HandleUnRsvp(s, userId, selected, now);
      GetCashGameRSVPs(r) == GetCashGameRSVPs(s)
      && GetCashGames(r)[i].seats_open == GetCashGames(s)[i].seats_open + 1
  {
    FilterKeepsAll(GetCashGameRSVPs(s), NotEntryOf(userId, selected));
  }
}

=== FILE: date_order.dfy ===
/** Ordering tournaments by start time, as the admin screens' array sort with
    a `date_time` comparator does. */
module DateOrder {
  import opened Seqs
  import opened Types

  predicate SortedByDate(ts: seq<Tournament>) {
    forall i, j :: 0 <= i < j < |ts| ==> ts[i].date_time <= ts[j].date_time
  }

  /** Places `t` into a date-sorted list, before the first later-or-equal entry. */
  function Insert(t: Tournament, ts: seq<Tournament>): (r: seq<Tournament>)
    requires SortedByDate(ts)
    ensures SortedByDate(r)
    ensures multiset(r) == multiset(ts) + multiset{t}
    ensures |r| == |ts| + 1
    ensures r[0] == t || (|ts| > 0 && r[0] == ts[0])
  {
    if |ts| == 0 || t.date_time <= ts[0].date_time then [t] + ts
    else
      var rest := Insert(t, ts[1..]);
      assert ts == [ts[0]] + ts[1..];
      var r := [ts[0]] + rest;
      assert ts[0].date_time <= rest[0].date_time;
      assert forall j :: 1 <= j < |r| ==> r[j] == rest[j - 1];
      r
  }

  /** The list ordered by ascending `date_time`; a permutation of the input. */
  function SortByDate(ts: seq<Tournament>): (r: seq<Tournament>)
    ensures SortedByDate(r)
    ensures multiset(r) == multiset(ts)
    ensures |r| == |ts|
  {
    if |ts| == 0 then []
    else
      assert ts == [ts[0]] + ts[1..];
      Insert(ts[0], SortByDate(ts[1..]))
  }

  /** Dropping entries from a sorted list keeps it sorted. */
  lemma {:induction false} FilterKeepsSorted(ts: seq<Tournament>, p: Tournament -> bool)
    requires SortedByDate(ts)
    ensures SortedByDate(Filter(ts, p))
  {
    if |ts| > 0 {
      var tail := ts[1..];
      FilterKeepsSorted(tail, p);
      var rest := Filter(tail, p);
      forall j | 0 <= j < |rest|
        ensures ts[0].date_time <= rest[j].date_time
      {
        assert rest[j] in tail;
        var k :| 0 <= k < |tail| && tail[k] == rest[j];
        assert ts[k + 1] == rest[j];
      }
    }
  }
}

=== FILE: edit_tournament.dfy ===
/** The admin tournament editor: the form pre-filled from the stored
    tournament, the level-times expansion, and the validated save that
    replaces the tournament by id. */
module EditTournament {
  import opened Wrappers
  import opened Seqs
  import opened Text
  import opened Types
  import opened Storage

  // Level times ---------------------------------------------------------------

  function TrimAll(xs: seq<string>): (r: seq<string>)
    ensures |r| == |xs| && forall i :: 0 <= i < |xs| ==> r[i] == Trim(xs[i])
  {
    seq(|xs|, i requires 0 <= i < |xs| => Trim(xs[i]))
  }

  function NonEmpty(p: string): bool { p != "" }

  /** The entries of a comma-separated field: split on ',', each piece
      trimmed, empty pieces dropped. Every entry is non-empty, has no white
      space at either end and no comma. */
  function Pieces(s: string): (r: seq<string>)
    ensures forall p :: p in r ==> p != "" && Trimmed(p) && ',' !in p
  {
    TrimmedPieces(Split(s, ','));
    Filter(TrimAll(Split(s, ',')), NonEmpty)
  }

  lemma TrimmedPieces(parts: seq<string>)
    requires forall i :: 0 <= i < |parts| ==> ',' !in parts[i]
    ensures forall p :: p in Filter(TrimAll(parts), NonEmpty) ==> p != "" && Trimmed(p) && ',' !in p
  {
    var trimmed := TrimAll(parts);
    forall p | p in Filter(trimmed, NonEmpty) ensures p != "" && Trimmed(p) && ',' !in p {
      assert p in trimmed && NonEmpty(p);
      var k :| 0 <= k < |trimmed| && trimmed[k] == p;
      TrimAvoids(parts[k], ',');
    }
  }

  /** Joining `n` copies of a comma-free `t` with ", " and splitting on ','
      gives `t` followed by `n - 1` copies of " " + `t`. */
  lemma {:induction false} SplitRepeated(t: string, n: nat)
    requires n >= 1 && ',' !in t
    ensures Split(Join(Repeat(t, n), ", "), ',') == [t] + Repeat(" " + t, n - 1)
  {
    if n == 1 {
      SplitWhole(t, ',');
    } else {
      var j := Join(Repeat(t, n - 1), ", ");
      assert Repeat(t, n)[1..] == Repeat(t, n - 1);
      assert Join(Repeat(t, n), ", ") == t + [','] + (" " + j);
      SplitFirst(t, ',', " " + j);
      SplitRepeated(t, n - 1);
      var rest := Split(j, ',');
      assert (" " + j)[0] == ' ' && (" " + j)[1..] == j;
      assert Split(" " + j, ',') == [[' '] + rest[0]] + rest[1..];
      assert Repeat(" " + t, n - 1) == [" " + t] + Repeat(" " + t, n - 2);
    }
  }

  /** The entries of `n` copies of an entry joined by ", " are those `n` copies. */
  lemma RepeatedPieces(t: string, n: nat)
    requires n >= 1 && t != "" && Trimmed(t) && ',' !in t
    ensures Pieces(Join(Repeat(t, n), ", ")) == Repeat(t, n)
  {
    var joined := Join(Repeat(t, n), ", ");
    SplitRepeated(t, n);
    TrimRepeated(t, n);
    assert TrimAll(Split(joined, ',')) == Repeat(t, n);
    forall x | x in Repeat(t, n) ensures NonEmpty(x) {
    }
    FilterKeepsAll(Repeat(t, n), NonEmpty);
    assert Pieces(joined) == Filter(Repeat(t, n), NonEmpty);
  }

  lemma TrimRepeated(t: string, n: nat)
    requires n >= 1 && t != "" && Trimmed(t)
    ensures TrimAll([t] + Repeat(" " + t, n - 1)) == Repeat(t, n)
  {
    var parts := [t] + Repeat(" " + t, n - 1);
    var trimmed := TrimAll(parts);
    forall i | 0 <= i < n ensures trimmed[i] == t {
      assert trimmed[i] == Trim(parts[i]);
      if i == 0 {
        assert parts[0] == t;
        TrimTrimmed(t);
      } else {
        assert parts[i] == Repeat(" " + t, n - 1)[i - 1] == " " + t;
        TrimTrimmed(t);
      }
    }
    assert trimmed == Repeat(t, n);
  }

  /** The level-times expansion. A blank field gives ""; a single time with
      more than one blind level gives that time once per level; in every
      other case the field is kept exactly as typed. */
  function ProcessLevelTimes(levelTimes: string, blindStructure: string): (r: string)
    ensures AllWhitespace(levelTimes) ==> r == ""
    ensures !AllWhitespace(levelTimes) && |Pieces(levelTimes)| == 1 && |Pieces(blindStructure)| > 1 ==>
      Pieces(r) == Repeat(Pieces(levelTimes)[0], |Pieces(blindStructure)|)
    ensures !AllWhitespace(levelTimes) && |Pieces(levelTimes)| == 1 && |Pieces(blindStructure)| > 1 ==>
      r == Join(Repeat(Pieces(levelTimes)[0], |Pieces(blindStructure)|), ", ")
    ensures !AllWhitespace(levelTimes) && !(|Pieces(levelTimes)| == 1 && |Pieces(blindStructure)| > 1) ==>
      r == levelTimes
  {
    TrimBlank(levelTimes);
    if Trim(levelTimes) == "" then ""
    else
      var times := Pieces(levelTimes);
      var levels := Pieces(blindStructure);
      if |times| == 1 && |levels| > 1 then
        assert times[0] in times;
        RepeatedPieces(times[0], |levels|);
        Join(Repeat(times[0], |levels|), ", ")
      else
        levelTimes
  }

  // The form and its save -----------------------------------------------------

  datatype TournamentForm = TournamentForm(
    name: string,
    dateTime: int,
    location: string,
    buyIn: string,
    blindStructure: string,
    levelTimes: string,
    maxPlayers: string)

  /** The form as the screen fills it from a stored tournament. */
  function LoadForm(t: Tournament): (f: TournamentForm)
    ensures ParseInt(f.maxPlayers) == Some(t.max_players)
  {
    ParseIntToString(t.max_players);
    TournamentForm(t.name, t.date_time, t.location, t.buy_in, t.blind_structure,
                   t.level_times.GetOr(""), IntToString(t.max_players))
  }

  predicate MissingField(f: TournamentForm) {
    f.name == "" || f.location == "" || f.buyIn == "" || f.blindStructure == "" || f.maxPlayers == ""
  }

  predicate ValidMaxPlayers(f: TournamentForm) {
    ParseInt(f.maxPlayers).Some? && ParseInt(f.maxPlayers).value >= 2
  }

  const FillAllFields := "Please fill in all fields"
  const MaxPlayersTooSmall := "Max players must be at least 2"

  datatype SaveResult = Invalid(message: string) | NotLoaded | Saved(store: Store)

  /** The loaded tournament with the form's values; everything else kept. */
  function Edited(t: Tournament, f: TournamentForm, maxPlayers: int): Tournament {
    t.(name := f.name, date_time := f.dateTime, location := f.location, buy_in := f.buyIn,
       blind_structure := f.blindStructure,
       level_times := Some(ProcessLevelTimes(f.levelTimes, f.blindStructure)),
       max_players := maxPlayers)
  }

  /** `x` is `t` as the form edits it: identity, creator and the fields the
      form does not show are `t`'s, the shown fields are the form's, max
      players is the parsed number and at least 2, and the level times are
      the expanded ones. */
  predicate EditOf(x: Tournament, t: Tournament, f: TournamentForm) {
    && x.id == t.id && x.created_by == t.created_by && x.created_at == t.created_at
    && x.game_type == t.game_type && x.late_registration == t.late_registration
    && x.starting_chips == t.starting_chips && x.add_on == t.add_on
    && x.name == f.name && x.location == f.location && x.buy_in == f.buyIn
    && x.blind_structure == f.blindStructure && x.date_time == f.dateTime
    && Some(x.max_players) == ParseInt(f.maxPlayers) && x.max_players >= 2
    && x.level_times == Some(ProcessLevelTimes(f.levelTimes, f.blindStructure))
  }

  function HasId(id: string): Tournament -> bool {
    (x: Tournament) => x.id == id
  }

  function ReplaceWith(edited: Tournament): Tournament -> Tournament {
    (_: Tournament) => edited
  }

  /** Replacing by id puts the edited tournament in every position holding
      that id and leaves every other position alone. */
  lemma ReplaceById(before: seq<Tournament>, id: string, edited: Tournament)
    ensures var after := Update(before, HasId(id), ReplaceWith(edited));
      && |after| == |before|
      && (forall i :: 0 <= i < |before| && before[i].id != id ==> after[i] == before[i])
      && (forall i :: 0 <= i < |before| && before[i].id == id ==> after[i] == edited)
  {
    var after := Update(before, HasId(id), ReplaceWith(edited));
    forall i | 0 <= i < |before| && before[i].id == id
      ensures after[i] == edited
    {
      assert HasId(id)(before[i]);
    }
  }

  /** The edited tournament is an edit of the loaded one by the form. */
  lemma EditedIsEdit(t: Tournament, f: TournamentForm, n: int)
    requires Some(n) == ParseInt(f.maxPlayers) && n >= 2
    ensures EditOf(Edited(t, f, n), t, f)
  {
  }

  /** Save. Empty required fields are refused first, then a max-players value
      that is not an integer of at least 2; with no tournament loaded nothing
      happens; otherwise every stored tournament with the loaded id is
      replaced by the edited one and the list is written back. */
  function HandleSave(s: Store, loaded: Option<Tournament>, f: TournamentForm): (r: SaveResult)
    ensures r == Invalid(FillAllFields) <==> MissingField(f)
    ensures r == Invalid(MaxPlayersTooSmall) <==> !MissingField(f) && !ValidMaxPlayers(f)
    ensures r.NotLoaded? <==> !MissingField(f) && ValidMaxPlayers(f) && loaded.None?
    ensures r.Saved? <==> !MissingField(f) && ValidMaxPlayers(f) && loaded.Some?
    ensures r.Saved? ==>
      var before := GetTournaments(s);
      var after := GetTournaments(r.store);
      && loaded.Some?
      && |after| == |before|
      && r.store.(tournaments := s.tournaments) == s
      && (forall i :: 0 <= i < |before| && before[i].id != loaded.value.id ==> after[i] == before[i])
      && (forall i :: 0 <= i < |before| && before[i].id == loaded.value.id ==> EditOf(after[i], loaded.value, f))
  {
    if MissingField(f) then Invalid(FillAllFields)
    else
      var maxPlayers := ParseInt(f.maxPlayers);
      if maxPlayers.None? || maxPlayers.value < 2 then Invalid(MaxPlayersTooSmall)
      else if loaded.None? then NotLoaded
      else
        var t := loaded.value;
        ReplaceById(GetTournaments(s), t.id, Edited(t, f, maxPlayers.value));
        EditedIsEdit(t, f, maxPlayers.value);
        Saved(SaveTournaments(s, Update(GetTournaments(s), HasId(t.id), ReplaceWith(Edited(t, f, maxPlayers.value)))))
  }

  /** Opening a valid tournament in the editor and saving without changes
      succeeds, and the stored max-players value survives the round trip
      through the text field. */
  lemma UnchangedFormSaves(s: Store, t: Tournament)
    requires t.name != "" && t.location != "" && t.buy_in != "" && t.blind_structure != ""
    requires t.max_players >= 2
    ensures var r := HandleSave(s, Some(t), LoadForm(t));
      r.Saved? && forall i :: 0 <= i < |GetTournaments(s)| && GetTournaments(s)[i].id == t.id ==>
        GetTournaments(r.store)[i].max_players == t.max_players
  {
    var f := LoadForm(t);
    assert f.maxPlayers != "" by {
      assert ParseInt(f.maxPlayers).Some?;
    }
  }
}

=== FILE: request_access.dfy ===
/** The membership request form: field checks before registration, and the
    message shown when registration fails. */
module RequestAccess {
  import opened Wrappers
  import opened Types
  import opened Storage
  import opened Auth

  datatype AccessForm = AccessForm(fullName: string, email: string, phone: string, nickname: string, password: string)

  const FillAllFields := "Please fill in all fields"
  const InvalidEmail := "Please enter a valid email address"
  const RegistrationFailed := "Registration failed"

  /** What the screen ends with: an error shown under the form, or the
      request submitted. */
  datatype SubmitOutcome = ShowError(message: string) | Submitted

  predicate MissingField(f: AccessForm) {
    f.fullName == "" || f.email == "" || f.phone == "" || f.nickname == "" || f.password == ""
  }

  /** The text shown for a failed registration: its error, or a fallback
      when it carries none. */
  function ErrorText(error: Option<string>): (msg: string)
    ensures msg != ""
    ensures error.Some? && error.value != "" ==> msg == error.value
    ensures !(error.Some? && error.value != "") ==> msg == RegistrationFailed
  {
    if error.Some? && error.value != "" then error.value else RegistrationFailed
  }

  function AsRegistration(f: AccessForm): Registration {
    Registration(f.fullName, f.email, f.phone, f.nickname, f.password)
  }

  /** Submit: all five fields must be filled and the email must contain '@';
      only then is registration called, with exactly those five fields. */
  function HandleSubmit(st: AuthState, f: AccessForm, id: string, now: string): (r: (SubmitOutcome, AuthState))
    ensures MissingField(f) ==> r == (ShowError(FillAllFields), st)
    ensures !MissingField(f) && '@' !in f.email ==> r == (ShowError(InvalidEmail), st)
    ensures !MissingField(f) && '@' in f.email ==>
      var (outcome, st') := Register(st, Registration(f.fullName, f.email, f.phone, f.nickname, f.password), id, now);
      r.1 == st' && (r.0 == Submitted <==> outcome.Success?)
      && (outcome.Failure? ==> r.0 == ShowError(ErrorText(Some(outcome.error))))
  {
    if MissingField(f) then (ShowError(FillAllFields), st)
    else if '@' !in f.email then (ShowError(InvalidEmail), st)
    else
      var (outcome, st') := Register(st, AsRegistration(f), id, now);
      match outcome
      case Success => (Submitted, st')
      case Failure(e) => (ShowError(ErrorText(Some(e))), st')
  }

  /** A request with an email that is already registered shows that error
      and leaves the users as they were. */
  lemma DuplicateEmailShown(st: AuthState, f: AccessForm, id: string, now: string)
    requires !MissingField(f) && '@' in f.email
    requires exists u :: u in GetUsers(st.store) && u.email == f.email
    ensures HandleSubmit(st, f, id, now) == (ShowError(EmailTaken), st)
  {
  }
}

=== FILE: roster.dfy ===
/** The joins the screens display: the RSVPs of one tournament or cash game,
    and the users whose ids appear among them. */
module Roster {
  import opened Seqs
  import opened Types

  function ForTournament(id: string): RSVP -> bool {
    (r: RSVP) => r.tournament_id == id
  }

  function ForCashGame(id: string): CashGameRSVP -> bool {
    (r: CashGameRSVP) => r.cash_game_id == id
  }

  /** The RSVPs whose tournament is `id`, in stored order. */
  function TournamentRsvps(rsvps: seq<RSVP>, id: string): (r: seq<RSVP>)
    ensures forall x :: x in r <==> x in rsvps && x.tournament_id == id
    ensures forall x :: multiset(r)[x] == if x.tournament_id == id then multiset(rsvps)[x] else 0
    ensures Subseq(r, rsvps)
  {
    Filter(rsvps, ForTournament(id))
  }

  /** The cash-game RSVPs whose game is `id`, in stored order. */
  function CashGameRsvps(rsvps: seq<CashGameRSVP>, id: string): (r: seq<CashGameRSVP>)
    ensures forall x :: x in r <==> x in rsvps && x.cash_game_id == id
    ensures forall x :: multiset(r)[x] == if x.cash_game_id == id then multiset(rsvps)[x] else 0
    ensures Subseq(r, rsvps)
  {
    Filter(rsvps, ForCashGame(id))
  }

  /** The `user_id` of each entry, in order: the `map(r => r.user_id)` the
      screens apply before looking users up. */
  function UserIds<T(!new)>(entries: seq<T>, userId: T -> string): (ids: seq<string>)
    ensures |ids| == |entries|
    ensures forall id :: id in ids <==> exists x :: x in entries && userId(x) == id
  {
    var ids := seq(|entries|, i requires 0 <= i < |entries| => userId(entries[i]));
    forall x | x in entries
      ensures userId(x) in ids
    {
      var k :| 0 <= k < |entries| && entries[k] == x;
      assert ids[k] == userId(x);
    }
    ids
  }

  function RsvpUser(x: RSVP): string { x.user_id }

  function CashRsvpUser(x: CashGameRSVP): string { x.user_id }

  function IdIn(ids: seq<string>): User -> bool {
    (u: User) => u.id in ids
  }

  /** The users whose id is one of `ids`, in user-list order, each as often
      as it is stored however many of the ids name it. */
  function UsersWithIds(users: seq<User>, ids: seq<string>): (r: seq<User>)
    ensures forall u :: u in r <==> u in users && u.id in ids
    ensures forall u :: multiset(r)[u] == if u.id in ids then multiset(users)[u] else 0
    ensures Subseq(r, users)
    ensures NoDup(users) ==> NoDup(r)
  {
    FilterNoDup(users, IdIn(ids));
    Filter(users, IdIn(ids))
  }

  /** `u` has an RSVP to tournament `id` in `rsvps`. */
  predicate Booked(rsvps: seq<RSVP>, id: string, u: User) {
    exists x :: x in rsvps && x.tournament_id == id && x.user_id == u.id
  }

  /** `u` has a waitlist entry for cash game `id` in `rsvps`. */
  predicate Waitlisted(rsvps: seq<CashGameRSVP>, id: string, u: User) {
    exists x :: x in rsvps && x.cash_game_id == id && x.user_id == u.id
  }

  /** The players listed for a tournament: users with an RSVP to it. */
  function TournamentPlayers(users: seq<User>, rsvps: seq<RSVP>, id: string): (r: seq<User>)
    ensures forall u :: u in r <==> u in users && Booked(rsvps, id, u)
    ensures forall u :: multiset(r)[u] ==
                        (if Booked(rsvps, id, u) then multiset(users)[u] else 0)
    ensures Subseq(r, users)
    ensures NoDup(users) ==> NoDup(r)
  {
    UsersWithIds(users, UserIds(TournamentRsvps(rsvps, id), RsvpUser))
  }

  /** The players listed for a cash game: users with a waitlist entry for it. */
  function CashGamePlayers(users: seq<User>, rsvps: seq<CashGameRSVP>, id: string): (r: seq<User>)
    ensures forall u :: u in r <==> u in users && Waitlisted(rsvps, id, u)
    ensures forall u :: multiset(r)[u] ==
                        (if Waitlisted(rsvps, id, u) then multiset(users)[u] else 0)
    ensures Subseq(r, users)
    ensures NoDup(users) ==> NoDup(r)
  {
    UsersWithIds(users, UserIds(CashGameRsvps(rsvps, id), CashRsvpUser))
  }
}

=== FILE: route_guard.dfy ===
/** The navigation guard of the root layout: on every change of user,
    route, navigation state or loading flag it decides whether to redirect.
    It looks only at the first route segment and only at whether a user is
    held, never at the user's status. */
module RouteGuard {
  import opened Wrappers
  import opened Types

  datatype Redirect = Stay | ToWelcome | ToHome

  /** Route roots that need a signed-in user. */
  const ProtectedRoots: set<string> := {"(tabs)", "admin", "tournament-details"}
  /** Route roots only meant for visitors who are not signed in. */
  const AuthScreens: set<string> := {"welcome", "login", "request-access"}

  predicate FirstIn(segments: seq<string>, roots: set<string>) {
    |segments| > 0 && segments[0] in roots
  }

  /** The guard's decision. `navReady` is whether the root navigation state
      has a key; `user` is the held user. */
  function Guard(navReady: bool, loading: bool, user: Option<User>, segments: seq<string>): (r: Redirect)
    ensures !navReady || loading ==> r == Stay
    ensures r == ToWelcome <==> navReady && !loading && user.None? && FirstIn(segments, ProtectedRoots)
    ensures r == ToHome <==> navReady && !loading && user.Some? && FirstIn(segments, AuthScreens)
  {
    if !navReady || loading then Stay
    else
      var first := if |segments| > 0 then Some(segments[0]) else None;
      var inTabs := first == Some("(tabs)");
      var onAuthScreen := first == Some("welcome") || first == Some("login") || first == Some("request-access");
      var onAdmin := first == Some("admin");
      var onDetails := first == Some("tournament-details");
      if user.None? && (inTabs || onAdmin || onDetails) then ToWelcome
      else if user.Some? && onAuthScreen then ToHome
      else Stay
  }

  /** Everything after the first segment is irrelevant. */
  lemma GuardReadsFirstSegment(navReady: bool, loading: bool, user: Option<User>, a: seq<string>, b: seq<string>)
    requires |a| > 0 && |b| > 0 && a[0] == b[0]
    ensures Guard(navReady, loading, user, a) == Guard(navReady, loading, user, b)
  {
  }

  /** Any held user is treated alike, whatever their status: a pending or
      rejected user on an admin screen is not redirected. */
  lemma GuardIgnoresStatus(navReady: bool, loading: bool, u: User, v: User, segments: seq<string>)
    ensures Guard(navReady, loading, Some(u), segments) == Guard(navReady, loading, Some(v), segments)
    ensures FirstIn(segments, {"admin"}) ==> Guard(navReady, loading, Some(u), segments) == Stay
  {
  }
}

=== FILE: rsvp_viewer.dfy ===
/** The admin tournament RSVP viewer: a read-only screen that lists the
    tournaments by date, selects the earliest, and shows who has an RSVP.
    Its functions return views only; it writes nothing. */
module RsvpViewer {
  import opened Seqs
  import opened Types
  import opened Storage
  import opened DateOrder
  import opened Roster

  datatype ViewerData = ViewerData(tournaments: seq<Tournament>, selected: string, users: seq<User>)

  /** The tournaments in date order, the earliest selected ("" for none),
      and the users. */
  function LoadData(s: Store): (v: ViewerData)
    ensures SortedByDate(v.tournaments)
    ensures multiset(v.tournaments) == multiset(GetTournaments(s))
    ensures |GetTournaments(s)| > 0 ==> |v.tournaments| > 0 && v.selected == v.tournaments[0].id
    ensures |GetTournaments(s)| > 0 ==> forall t :: t in GetTournaments(s) ==> v.tournaments[0].date_time <= t.date_time
    ensures |GetTournaments(s)| == 0 ==> v.selected == ""
    ensures v.users == GetUsers(s)
  {
    var sorted := SortByDate(GetTournaments(s));
    forall t | t in GetTournaments(s) ensures t in sorted {
      assert t in multiset(GetTournaments(s));
    }
    ViewerData(sorted, if |sorted| > 0 then sorted[0].id else "", GetUsers(s))
  }

  datatype RsvpList = RsvpList(rsvps: seq<RSVP>, players: seq<User>)

  /** The RSVPs of the selected tournament and the users they name, each user
      once and in user-list order; with nothing selected nothing is loaded. */
  function LoadRsvps(s: Store, v: ViewerData): (l: RsvpList)
    ensures v.selected == "" ==> l == RsvpList([], [])
    ensures v.selected != "" ==>
      && (forall x :: x in l.rsvps <==> x in GetRSVPs(s) && x.tournament_id == v.selected)
      && (forall x :: multiset(l.rsvps)[x] == if x.tournament_id == v.selected then multiset(GetRSVPs(s))[x] else 0)
      && Subseq(l.rsvps, GetRSVPs(s))
      && (forall u :: u in l.players <==>
            u in v.users && Booked(GetRSVPs(s), v.selected, u))
      && (forall u :: multiset(l.players)[u] ==
                      (if Booked(GetRSVPs(s), v.selected, u) then multiset(v.users)[u] else 0))
      && Subseq(l.players, v.users)
      && (NoDup(v.users) ==> NoDup(l.players))
  {
    if v.selected == "" then RsvpList([], [])
    else RsvpList(TournamentRsvps(GetRSVPs(s), v.selected), TournamentPlayers(v.users, GetRSVPs(s), v.selected))
  }
}

=== FILE: seqs.dfy ===
/** Sequence combinators that mirror the JavaScript array methods the screens
    use: `filter`, `find`, `findIndex` and an id-guarded `map`. */
module Seqs {
  import opened Wrappers

  /** `a` is obtained from `b` by dropping elements; the kept ones stay in order. */
  predicate Subseq<T(==)>(a: seq<T>, b: seq<T>)
    decreases |b|
  {
    if |a| == 0 then true
    else if |b| == 0 then false
    else (a[0] == b[0] && Subseq(a[1..], b[1..])) || Subseq(a, b[1..])
  }

  /** No element occurs twice. */
  predicate NoDup<T(==)>(s: seq<T>) {
    forall i, j :: 0 <= i < j < |s| ==> s[i] != s[j]
  }

  /** `Array.prototype.filter`: keeps, in order, the elements satisfying `p`,
      each with the multiplicity it has in `s`. */
  function Filter<T(==,!new)>(s: seq<T>, p: T -> bool): (r: seq<T>)
    ensures Subseq(r, s)
    ensures forall x :: multiset(r)[x] == if p(x) then multiset(s)[x] else 0
    ensures forall x :: x in r <==> x in s && p(x)
    ensures |r| <= |s|
  {
    if |s| == 0 then []
    else
      var rest := Filter(s[1..], p);
      assert s == [s[0]] + s[1..];
      if p(s[0]) then
        assert ([s[0]] + rest)[1..] == rest;
        [s[0]] + rest
      else
        rest
  }

  lemma {:induction false} FilterKeepsAll<T(!new)>(s: seq<T>, p: T -> bool)
    requires forall x :: x in s ==> p(x)
    ensures Filter(s, p) == s
  {
    if |s| > 0 {
      FilterKeepsAll(s[1..], p);
    }
  }

  lemma {:induction false} FilterAppend<T(!new)>(a: seq<T>, b: seq<T>, p: T -> bool)
    ensures Filter(a + b, p) == Filter(a, p) + Filter(b, p)
  {
    if |a| == 0 {
      assert a + b == b;
    } else {
      assert (a + b)[1..] == a[1..] + b;
      FilterAppend(a[1..], b, p);
    }
  }

  lemma {:induction false} FilterNoDup<T(!new)>(s: seq<T>, p: T -> bool)
    ensures NoDup(s) ==> NoDup(Filter(s, p))
  {
    if |s| > 0 && NoDup(s) {
      assert NoDup(s[1..]) by {
        forall i, j | 0 <= i < j < |s[1..]| ensures s[1..][i] != s[1..][j] {
          assert s[1..][i] == s[i + 1] && s[1..][j] == s[j + 1];
        }
      }
      FilterNoDup(s[1..], p);
      assert s[0] !in s[1..] by {
        forall k | 0 <= k < |s[1..]| ensures s[1..][k] != s[0] {
          assert s[1..][k] == s[k + 1];
        }
      }
    }
  }

  /** `Array.prototype.find`: the first element satisfying `p`, if any. */
  function Find<T(!new)>(s: seq<T>, p: T -> bool): (r: Option<T>)
    ensures r.None? <==> forall x :: x in s ==> !p(x)
    ensures r.Some? ==> r.value in s && p(r.value)
    ensures forall i :: 0 <= i < |s| && p(s[i]) && (forall j :: 0 <= j < i ==> !p(s[j])) ==> r == Some(s[i])
  {
    if |s| == 0 then None
    else if p(s[0]) then Some(s[0])
    else
      var r := Find(s[1..], p);
      assert s == [s[0]] + s[1..];
      assert forall i :: 1 <= i < |s| ==> s[i] == s[1..][i - 1];
      r
  }

  /** Searching a filtered list is searching the whole list for elements that
      pass both tests. */
  lemma {:induction false} FindInFilter<T(!new)>(s: seq<T>, q: T -> bool, p: T -> bool, both: T -> bool)
    requires forall x :: both(x) == (q(x) && p(x))
    ensures Find(Filter(s, q), p) == Find(s, both)
  {
    if |s| > 0 {
      FindInFilter(s[1..], q, p, both);
      if q(s[0]) {
        assert Filter(s, q) == [s[0]] + Filter(s[1..], q);
        assert ([s[0]] + Filter(s[1..], q))[1..] == Filter(s[1..], q);
      }
    }
  }

  /** Every earlier element is related by `rel` to every later one. */
  predicate Pairwise<T>(s: seq<T>, rel: (T, T) -> bool) {
    forall i, j :: 0 <= i < j < |s| ==> rel(s[i], s[j])
  }

  /** Positions in a subsequence map to increasing positions in the whole. */
  lemma {:induction false} SubseqPositions<T>(a: seq<T>, b: seq<T>, i: int, j: int) returns (i2: int, j2: int)
    requires Subseq(a, b) && 0 <= i < j < |a|
    ensures 0 <= i2 < j2 < |b| && b[i2] == a[i] && b[j2] == a[j]
    decreases |b|
  {
    if a[0] == b[0] && Subseq(a[1..], b[1..]) {
      if i == 0 {
        var k := SubseqPosition(a[1..], b[1..], j - 1);
        i2, j2 := 0, k + 1;
      } else {
        i2, j2 := SubseqPositions(a[1..], b[1..], i - 1, j - 1);
        i2, j2 := i2 + 1, j2 + 1;
      }
    } else {
      i2, j2 := SubseqPositions(a, b[1..], i, j);
      i2, j2 := i2 + 1, j2 + 1;
    }
  }

  lemma {:induction false} SubseqPosition<T>(a: seq<T>, b: seq<T>, i: int) returns (i2: int)
    requires Subseq(a, b) && 0 <= i < |a|
    ensures 0 <= i2 < |b| && b[i2] == a[i]
    decreases |b|
  {
    if a[0] == b[0] && Subseq(a[1..], b[1..]) {
      if i == 0 {
        i2 := 0;
      } else {
        i2 := SubseqPosition(a[1..], b[1..], i - 1);
        i2 := i2 + 1;
      }
    } else {
      i2 := SubseqPosition(a, b[1..], i);
      i2 := i2 + 1;
    }
  }

  /** A pairwise property of a list holds of every subsequence of it. */
  lemma SubseqPairwise<T>(a: seq<T>, b: seq<T>, rel: (T, T) -> bool)
    requires Subseq(a, b) && Pairwise(b, rel)
    ensures Pairwise(a, rel)
  {
    forall i, j | 0 <= i < j < |a| ensures rel(a[i], a[j]) {
      var i2, j2 := SubseqPositions(a, b, i, j);
    }
  }

  /** An `Array.prototype.map` that rewrites the elements selected by `p` with
      `f` and returns every other element as it was. */
  function Update<T>(s: seq<T>, p: T -> bool, f: T -> T): (r: seq<T>)
    ensures |r| == |s|
    ensures forall i :: 0 <= i < |s| && !p(s[i]) ==> r[i] == s[i]
    ensures forall i :: 0 <= i < |s| && p(s[i]) ==> r[i] == f(s[i])
  {
    seq(|s|, i requires 0 <= i < |s| => if p(s[i]) then f(s[i]) else s[i])
  }

  /** `n` copies of `x`, as `Array(n).fill(x)` builds them. */
  function Repeat<T>(x: T, n: nat): (r: seq<T>)
    ensures |r| == n
    ensures forall i :: 0 <= i < n ==> r[i] == x
  {
    if n == 0 then [] else [x] + Repeat(x, n - 1)
  }
}

=== FILE: storage.dfy ===
/** The device's key-value store, seen as six named slots, and the service
    that reads, writes and seeds them. A slot is absent, holds a value, or
    holds data that cannot be parsed; reading such data fails, and the
    service swallows the failure and returns the empty default. */
module Storage {
  import opened Wrappers
  import opened Types

  datatype Slot<T> = Absent | Malformed | Present(value: T)

  datatype Store = Store(
    users: Slot<seq<User>>,
    tournaments: Slot<seq<Tournament>>,
    rsvps: Slot<seq<RSVP>>,
    cashGames: Slot<seq<CashGame>>,
    cashGameRsvps: Slot<seq<CashGameRSVP>>,
    currentUser: Slot<User>)

  /** A collection read: the stored list, or the empty list when there is none
      or it cannot be read. */
  function ReadList<T>(slot: Slot<seq<T>>): seq<T> {
    if slot.Present? then slot.value else []
  }

  function GetUsers(s: Store): seq<User> { ReadList(s.users) }
  function GetTournaments(s: Store): seq<Tournament> { ReadList(s.tournaments) }
  function GetRSVPs(s: Store): seq<RSVP> { ReadList(s.rsvps) }
  function GetCashGames(s: Store): seq<CashGame> { ReadList(s.cashGames) }
  function GetCashGameRSVPs(s: Store): seq<CashGameRSVP> { ReadList(s.cashGameRsvps) }

  /** The session pointer: the stored user, or none when absent or unreadable. */
  function GetCurrentUser(s: Store): Option<User> {
    if s.currentUser.Present? then Some(s.currentUser.value) else None
  }

  /** An absent or unreadable key reads as its empty default. */
  lemma MissingReadsEmpty(s: Store)
    ensures !s.users.Present? ==> GetUsers(s) == []
    ensures !s.tournaments.Present? ==> GetTournaments(s) == []
    ensures !s.rsvps.Present? ==> GetRSVPs(s) == []
    ensures !s.cashGames.Present? ==> GetCashGames(s) == []
    ensures !s.cashGameRsvps.Present? ==> GetCashGameRSVPs(s) == []
    ensures !s.currentUser.Present? ==> GetCurrentUser(s) == None
  {
  }

  // Each save overwrites its whole collection and touches no other key.

  function SaveUsers(s: Store, xs: seq<User>): (r: Store)
    ensures GetUsers(r) == xs
    ensures r.(users := s.users) == s
  {
    s.(users := Present(xs))
  }

  function SaveTournaments(s: Store, xs: seq<Tournament>): (r: Store)
    ensures GetTournaments(r) == xs
    ensures r.(tournaments := s.tournaments) == s
  {
    s.(tournaments := Present(xs))
  }

  function SaveRSVPs(s: Store, xs: seq<RSVP>): (r: Store)
    ensures GetRSVPs(r) == xs
    ensures r.(rsvps := s.rsvps) == s
  {
    s.(rsvps := Present(xs))
  }

  function SaveCashGames(s: Store, xs: seq<CashGame>): (r: Store)
    ensures GetCashGames(r) == xs
    ensures r.(cashGames := s.cashGames) == s
  {
    s.(cashGames := Present(xs))
  }

  function SaveCashGameRSVPs(s: Store, xs: seq<CashGameRSVP>): (r: Store)
    ensures GetCashGameRSVPs(r) == xs
    ensures r.(cashGameRsvps := s.cashGameRsvps) == s
  {
    s.(cashGameRsvps := Present(xs))
  }

  /** Removes the session pointer. */
  function ClearCurrentUser(s: Store): (r: Store)
    ensures r.currentUser == Absent && GetCurrentUser(r) == None
    ensures r.(currentUser := s.currentUser) == s
  {
    s.(currentUser := Absent)
  }

  /** Stores the given user as the session pointer; with no user it removes
      the pointer, exactly as clearing does. */
  function SetCurrentUser(s: Store, u: Option<User>): (r: Store)
    ensures GetCurrentUser(r) == u
    ensures r.(currentUser := s.currentUser) == s
    ensures u.None? ==> r == ClearCurrentUser(s)
  {
    match u
    case Some(v) => s.(currentUser := Present(v))
    case None => s.(currentUser := Absent)
  }

  // Seed data -----------------------------------------------------------------

  const DayMillis: int := 24 * 60 * 60 * 1000

  /** The demo accounts: the administrator and one approved member. */
  function DefaultUsers(now: string): (r: seq<User>)
    ensures |r| == 2
    ensures r[0].id == "1" && r[0].status == Admin
    ensures r[1].id == "2" && r[1].status == Approved
  {
    [ User("1", "Admin User", "admin@pokerplace.com", "555-0100", "Admin", "admin123", Admin, now),
      User("2", "John Doe", "john@example.com", "555-0101", "JohnnyPoker", "password123", Approved, now) ]
  }

  /** The demo tournaments, two and five days after `nowMillis`. */
  function DefaultTournaments(nowMillis: int, now: string): (r: seq<Tournament>)
    ensures |r| == 2
    ensures r[0].date_time < r[1].date_time
    ensures forall i :: 0 <= i < |r| ==> r[i].max_players >= 2 && r[i].created_by == "1"
  {
    [ Tournament("1", "Friday Night Poker", nowMillis + 2 * DayMillis, "Downtown Poker Club", "$50",
        "25/50, 50/100, 100/200, 200/400, 400/800", None, 10, "1", now,
        Some("Hold'em"), Some("End of Level 3"), Some("10,000"), Some("None")),
      Tournament("2", "Weekend Championship", nowMillis + 5 * DayMillis, "Main Street Casino", "$100",
        "50/100, 100/200, 200/400, 400/800, 800/1600", None, 20, "1", now,
        Some("Hold'em"), Some("End of Level 5"), Some("20,000"), Some("$50 for 10,000 chips")) ]
  }

  /** First-run seeding: the demo users are written only when the user list
      reads as empty, and, independently, the demo tournaments only when the
      tournament list reads as empty. Nothing else is written. */
  function InitializeDefaultData(s: Store, nowMillis: int, now: string): (r: Store)
    ensures GetUsers(s) == [] ==> GetUsers(r) == DefaultUsers(now)
    ensures GetUsers(s) != [] ==> r.users == s.users
    ensures GetTournaments(s) == [] ==> GetTournaments(r) == DefaultTournaments(nowMillis, now)
    ensures GetTournaments(s) != [] ==> r.tournaments == s.tournaments
    ensures GetUsers(r) != [] && GetTournaments(r) != []
    ensures r.(users := s.users, tournaments := s.tournaments) == s
  {
    var s1 := if |GetUsers(s)| == 0 then SaveUsers(s, DefaultUsers(now)) else s;
    if |GetTournaments(s1)| == 0 then SaveTournaments(s1, DefaultTournaments(nowMillis, now)) else s1
  }

  /** Seeding twice is seeding once, whatever clock the second run reads. */
  lemma InitializeIdempotent(s: Store, nowMillis: int, now: string, laterMillis: int, later: string)
    ensures InitializeDefaultData(InitializeDefaultData(s, nowMillis, now), laterMillis, later)
         == InitializeDefaultData(s, nowMillis, now)
  {
  }
}

=== FILE: text.dfy ===
/** The string operations the forms rely on: `String.prototype.trim`, `split`
    on a single character, `Array.prototype.join`, the global `parseInt` and
    `Number.prototype.toString`. Strings are sequences of characters. */
module Text {
  import opened Wrappers

  /** The white-space and line-terminator characters `trim` removes (the
      common ones; the other Unicode space separators are not listed). */
  predicate IsWhitespace(c: char) {
    c == ' ' || c == '\t' || c == '\n' || c == '\r' || c == '\U{0B}' || c == '\U{0C}'
    || c == '\U{A0}' || c == '\U{FEFF}' || c == '\U{2028}' || c == '\U{2029}'
  }

  predicate AllWhitespace(s: string) {
    forall i :: 0 <= i < |s| ==> IsWhitespace(s[i])
  }

  /** Neither end of `s` is white space. */
  predicate Trimmed(s: string) {
    |s| == 0 || (!IsWhitespace(s[0]) && !IsWhitespace(s[|s| - 1]))
  }

  /** Drops leading white space: the result is the suffix of `s` that starts at
      its first non-white-space character. */
  function TrimStart(s: string): (r: string)
    ensures |r| <= |s| && r == s[|s| - |r|..]
    ensures AllWhitespace(s[..|s| - |r|])
    ensures |r| == 0 || !IsWhitespace(r[0])
  {
    if |s| > 0 && IsWhitespace(s[0]) then
      var r := TrimStart(s[1..]);
      assert s[..|s| - |r|] == [s[0]] + s[1..][..|s[1..]| - |r|];
      r
    else
      s
  }

  /** Drops trailing white space: the result is the prefix of `s` that ends at
      its last non-white-space character. */
  function TrimEnd(s: string): (r: string)
    ensures |r| <= |s| && r == s[..|r|]
    ensures AllWhitespace(s[|r|..])
    ensures |r| == 0 || !IsWhitespace(r[|r| - 1])
  {
    if |s| > 0 && IsWhitespace(s[|s| - 1]) then
      var r := TrimEnd(s[..|s| - 1]);
      assert s[|r|..] == s[..|s| - 1][|r|..] + [s[|s| - 1]];
      r
    else
      s
  }

  /** `r` is the slice of `s` starting at `i`, and everything of `s` outside
      it is white space. */
  predicate SliceBetweenSpace(s: string, r: string, i: int) {
    0 <= i <= |s| - |r| && r == s[i..i + |r|] && AllWhitespace(s[..i]) && AllWhitespace(s[i + |r|..])
  }

  /** `String.prototype.trim`: the longest slice of `s` with no white space at
      either end, obtained by dropping only white space. */
  function Trim(s: string): (r: string)
    ensures Trimmed(r)
    ensures exists i :: SliceBetweenSpace(s, r, i)
  {
    var a := TrimStart(s);
    var r := TrimEnd(a);
    TrimSlice(s, a, r);
    r
  }

  lemma TrimSlice(s: string, a: string, r: string)
    requires |a| <= |s| && a == s[|s| - |a|..] && AllWhitespace(s[..|s| - |a|])
    requires |r| <= |a| && r == a[..|r|] && AllWhitespace(a[|r|..])
    ensures SliceBetweenSpace(s, r, |s| - |a|)
  {
    var i := |s| - |a|;
    assert s[i + |r|..] == a[|r|..];
  }

  /** A string trims to nothing exactly when it is all white space. */
  lemma TrimBlank(s: string)
    ensures Trim(s) == "" <==> AllWhitespace(s)
  {
    var a := TrimStart(s);
    if Trim(s) == "" {
      assert AllWhitespace(a[0..]);
      assert s == s[..|s| - |a|] + a;
    }
  }

  /** Trimming a trimmed string changes nothing, even after one leading space. */
  lemma TrimTrimmed(t: string)
    requires Trimmed(t)
    ensures Trim(t) == t
    ensures |t| > 0 ==> Trim(" " + t) == t
  {
    if |t| > 0 {
      assert (" " + t)[1..] == t;
    }
  }

  /** A slice of a string is free of any character the string is free of. */
  lemma SliceAvoids(s: string, c: char, i: int, j: int)
    requires 0 <= i <= j <= |s| && c !in s
    ensures c !in s[i..j]
  {
  }

  /** Trimming never introduces a character. */
  lemma TrimAvoids(s: string, c: char)
    requires c !in s
    ensures c !in Trim(s)
  {
    var a := TrimStart(s);
    SliceAvoids(s, c, |s| - |a|, |s|);
    var r := TrimEnd(a);
    SliceAvoids(a, c, 0, |r|);
    assert Trim(s) == r;
  }

  /** `String.prototype.split` with a one-character separator: the pieces
      between the occurrences of `sep`, so there is always at least one. */
  function Split(s: string, sep: char): (r: seq<string>)
    ensures |r| >= 1
    ensures forall i :: 0 <= i < |r| ==> sep !in r[i]
    ensures Join(r, [sep]) == s
  {
    if |s| == 0 then [""]
    else if s[0] == sep then
      var rest := Split(s[1..], sep);
      assert ([""] + rest)[1..] == rest;
      assert s == [sep] + s[1..];
      [""] + rest
    else
      var rest := Split(s[1..], sep);
      var r := [[s[0]] + rest[0]] + rest[1..];
      assert r[1..] == rest[1..];
      assert s == [s[0]] + s[1..];
      r
  }

  /** `Array.prototype.join`: the pieces with `sep` between each neighbouring pair. */
  function Join(xs: seq<string>, sep: string): (r: string)
    ensures |xs| == 0 ==> r == ""
    ensures |xs| == 1 ==> r == xs[0]
    ensures |xs| > 1 ==> xs[0] + sep <= r
  {
    if |xs| == 0 then ""
    else if |xs| == 1 then xs[0]
    else xs[0] + sep + Join(xs[1..], sep)
  }

  /** A string without the separator splits into itself. */
  lemma {:induction false} SplitWhole(a: string, sep: char)
    requires sep !in a
    ensures Split(a, sep) == [a]
  {
    if |a| > 0 {
      assert sep !in a[1..];
      SplitWhole(a[1..], sep);
      assert [a[0]] + a[1..] == a;
    }
  }

  /** A separator-free prefix before the first separator is the first piece. */
  lemma {:induction false} SplitFirst(a: string, sep: char, b: string)
    requires sep !in a
    ensures Split(a + [sep] + b, sep) == [a] + Split(b, sep)
  {
    if |a| == 0 {
      assert a + [sep] + b == [sep] + b;
      assert ([sep] + b)[1..] == b;
    } else {
      assert (a + [sep] + b)[1..] == a[1..] + [sep] + b;
      assert sep !in a[1..];
      SplitFirst(a[1..], sep, b);
      assert [a[0]] + a[1..] == a;
    }
  }

  /** `Split` undoes `Join` when no piece contains the separator. */
  lemma {:induction false} SplitJoin(xs: seq<string>, sep: char)
    requires |xs| >= 1
    requires forall i :: 0 <= i < |xs| ==> sep !in xs[i]
    ensures Split(Join(xs, [sep]), sep) == xs
  {
    if |xs| == 1 {
      SplitWhole(xs[0], sep);
    } else {
      SplitJoin(xs[1..], sep);
      SplitFirst(xs[0], sep, Join(xs[1..], [sep]));
      assert [xs[0]] + xs[1..] == xs;
    }
  }

  // ---------------------------------------------------------------------------
  // Decimal numerals

  predicate IsDigit(c: char) {
    '0' <= c <= '9'
  }

  predicate AllDigits(s: string) {
    forall i :: 0 <= i < |s| ==> IsDigit(s[i])
  }

  function DigitValue(c: char): (d: nat)
    requires IsDigit(c)
    ensures d < 10
  {
    (c as int) - ('0' as int)
  }

  function DigitChar(d: nat): (c: char)
    requires d < 10
    ensures IsDigit(c) && DigitValue(c) == d
  {
    (('0' as int) + d) as char
  }

  /** The number a string of decimal digits denotes. */
  function DigitsValue(s: string): nat
    requires AllDigits(s)
  {
    if |s| == 0 then 0 else DigitsValue(s[..|s| - 1]) * 10 + DigitValue(s[|s| - 1])
  }

  /** The longest prefix of `s` made of decimal digits. */
  function DigitPrefix(s: string): (r: string)
    ensures AllDigits(r) && |r| <= |s| && r == s[..|r|]
    ensures |r| == |s| || !IsDigit(s[|r|])
  {
    if |s| > 0 && IsDigit(s[0]) then
      var rest := DigitPrefix(s[1..]);
      assert [s[0]] + rest == s[..|rest| + 1];
      [s[0]] + rest
    else
      ""
  }

  /** The global `parseInt` with no radix: leading white space is skipped, one
      optional sign is read, then the longest run of decimal digits; no digits
      at all gives `NaN`, modelled as None. */
  function ParseInt(s: string): (r: Option<int>)
    ensures AllWhitespace(s) ==> r.None?
    ensures |s| > 0 && AllDigits(s) ==> r == Some(DigitsValue(s))
  {
    PlainDigits(s);
    var t := TrimStart(s);
    var digits := DigitPrefix(Unsigned(t));
    var magnitude: int := DigitsValue(digits);
    if |digits| == 0 then None
    else if |t| > 0 && t[0] == '-' then Some(-magnitude)
    else Some(magnitude)
  }

  lemma {:induction false} DigitPrefixOfDigits(s: string)
    requires AllDigits(s)
    ensures DigitPrefix(s) == s
  {
    if |s| > 0 {
      DigitPrefixOfDigits(s[1..]);
      assert [s[0]] + s[1..] == s;
    }
  }

  /** A plain digit string has no white space or sign to skip. */
  lemma PlainDigits(s: string)
    ensures |s| > 0 && AllDigits(s) ==> TrimStart(s) == s && Unsigned(s) == s && DigitPrefix(s) == s
  {
    if |s| > 0 && AllDigits(s) {
      assert !IsWhitespace(s[0]) && s[0] != '-' && s[0] != '+';
      DigitPrefixOfDigits(s);
    }
  }

  /** `t` without its leading sign character, if it has one. */
  function Unsigned(t: string): string {
    if |t| > 0 && (t[0] == '-' || t[0] == '+') then t[1..] else t
  }

  /** `Number.prototype.toString` on a non-negative integer. */
  function NatToString(n: nat): (r: string)
    ensures |r| > 0 && AllDigits(r) && DigitsValue(r) == n
  {
    if n < 10 then [DigitChar(n)]
    else
      var r := NatToString(n / 10) + [DigitChar(n % 10)];
      assert r[..|r| - 1] == NatToString(n / 10);
      r
  }

  /** `Number.prototype.toString` on an integer: a minus sign for negatives. */
  function IntToString(n: int): (r: string)
    ensures n < 0 ==> |r| > 1 && r[0] == '-' && AllDigits(r[1..])
    ensures n >= 0 ==> AllDigits(r)
  {
    if n < 0 then "-" + NatToString(-n) else NatToString(n)
  }

  /** Reading back what `toString` wrote gives the same integer, which is what
      the edit forms rely on when they pre-fill a numeric field. */
  lemma ParseIntToString(n: int)
    ensures ParseInt(IntToString(n)) == Some(n)
  {
    var s := IntToString(n);
    var ds := NatToString(if n < 0 then -n else n);
    DigitPrefixOfDigits(ds);
    assert !IsWhitespace(s[0]);
    assert TrimStart(s) == s;
    assert Unsigned(s) == ds by {
      if n < 0 { assert s[1..] == ds; }
    }
  }
}

=== FILE: tournament_details.dfy ===
/** The tournament page: the tournament, its RSVPs and players, the RSVP
    toggle and the state of the RSVP button. Capacity is only a button
    state: the toggle itself writes whatever the count. */
module TournamentDetails {
  import opened Wrappers
  import opened Seqs
  import opened Types
  import opened Storage
  import opened Roster

  datatype DetailsView = DetailsView(tournament: Option<Tournament>, rsvps: seq<RSVP>, players: seq<User>)

  function TournamentWithId(id: string): Tournament -> bool {
    (t: Tournament) => t.id == id
  }

  /** What the page loads for route id `id`: the first tournament with that
      id, the RSVPs naming it, and the users those RSVPs name. */
  function LoadData(s: Store, id: string): (v: DetailsView)
    ensures v.tournament.None? <==> forall t :: t in GetTournaments(s) ==> t.id != id
    ensures v.tournament.Some? ==> v.tournament.value in GetTournaments(s) && v.tournament.value.id == id
    ensures forall i :: (0 <= i < |GetTournaments(s)| && GetTournaments(s)[i].id == id
                         && forall j :: 0 <= j < i ==> GetTournaments(s)[j].id != id) ==>
      v.tournament == Some(GetTournaments(s)[i])
    ensures forall x :: x in v.rsvps <==> x in GetRSVPs(s) && x.tournament_id == id
    ensures forall x :: multiset(v.rsvps)[x] == if x.tournament_id == id then multiset(GetRSVPs(s))[x] else 0
    ensures Subseq(v.rsvps, GetRSVPs(s))
    ensures forall u :: u in v.players <==> u in GetUsers(s) && Booked(GetRSVPs(s), id, u)
    ensures forall u :: multiset(v.players)[u] ==
                        (if Booked(GetRSVPs(s), id, u) then multiset(GetUsers(s))[u] else 0)
    ensures Subseq(v.players, GetUsers(s))
  {
    DetailsView(TournamentById(GetTournaments(s), id),
                TournamentRsvps(GetRSVPs(s), id),
                TournamentPlayers(GetUsers(s), GetRSVPs(s), id))
  }

  /** The first tournament carrying the id, as the screen's `find` picks it. */
  function TournamentById(ts: seq<Tournament>, id: string): (t: Option<Tournament>)
    ensures t.None? <==> forall x :: x in ts ==> x.id != id
    ensures t.Some? ==> t.value in ts && t.value.id == id
    ensures forall i :: (0 <= i < |ts| && ts[i].id == id && forall j :: 0 <= j < i ==> ts[j].id != id) ==>
      t == Some(ts[i])
  {
    Find(ts, TournamentWithId(id))
  }

  predicate IsRsvpFor(x: RSVP, userId: string, tournamentId: string) {
    x.user_id == userId && x.tournament_id == tournamentId
  }

  function ByUser(userId: string): RSVP -> bool {
    (x: RSVP) => x.user_id == userId
  }

  function WithoutId(id: string): RSVP -> bool {
    (x: RSVP) => x.id != id
  }

  function PairOf(userId: string, tournamentId: string): RSVP -> bool {
    (x: RSVP) => IsRsvpFor(x, userId, tournamentId)
  }

  /** The RSVP toggle over the full RSVP list. None means nothing is written
      (no user, or no tournament). If the user has an RSVP for the tournament,
      the first one is removed, together with anything sharing its id;
      otherwise a new RSVP with the given id and time is appended. */
  function Toggle(all: seq<RSVP>, user: Option<User>, t: Option<Tournament>, freshId: string, now: string): (r: Option<seq<RSVP>>)
    ensures user.None? || t.None? <==> r.None?
    ensures user.Some? && t.Some? && (forall x :: x in all ==> !IsRsvpFor(x, user.value.id, t.value.id)) ==>
      r == Some(all + [RSVP(freshId, user.value.id, t.value.id, now)])
    ensures forall i :: (user.Some? && t.Some? && 0 <= i < |all| && IsRsvpFor(all[i], user.value.id, t.value.id)
                         && forall j :: 0 <= j < i ==> !IsRsvpFor(all[j], user.value.id, t.value.id)) ==>
      && r.Some?
      && Subseq(r.value, all)
      && (forall x :: x in r.value <==> x in all && x.id != all[i].id)
      && (forall x :: multiset(r.value)[x] == if x.id != all[i].id then multiset(all)[x] else 0)
  {
    if user.None? || t.None? then None
    else
      var u := user.value;
      var view := TournamentRsvps(all, t.value.id);
      FindInFilter(all, ForTournament(t.value.id), ByUser(u.id), PairOf(u.id, t.value.id));
      match Find(view, ByUser(u.id))
      case Some(existing) => Some(Filter(all, WithoutId(existing.id)))
      case None => Some(all + [RSVP(freshId, u.id, t.value.id, now)])
  }

  /** The toggle's removal branch, stated by the RSVP the page finds. */
  lemma ToggleRemoves(all: seq<RSVP>, u: User, t: Tournament, e: RSVP, freshId: string, now: string)
    requires Find(TournamentRsvps(all, t.id), ByUser(u.id)) == Some(e)
    ensures Toggle(all, Some(u), Some(t), freshId, now) == Some(Filter(all, WithoutId(e.id)))
  {
  }

  /** Toggling on and then off again, with a fresh id for the new RSVP,
      restores the RSVP list exactly. */
  lemma ToggleTwiceRestores(all: seq<RSVP>, u: User, t: Tournament, freshId: string, now: string,
                            laterId: string, later: string)
    requires forall x :: x in all ==> !IsRsvpFor(x, u.id, t.id)
    requires forall x :: x in all ==> x.id != freshId
    ensures var once := Toggle(all, Some(u), Some(t), freshId, now);
      once.Some? && Toggle(once.value, Some(u), Some(t), laterId, later) == Some(all)
  {
    var added := RSVP(freshId, u.id, t.id, now);
    var once := all + [added];
    assert Toggle(all, Some(u), Some(t), freshId, now) == Some(once);
    AddedIsFirst(all, added, u.id, t.id);
    ToggleRemoves(once, u, t, added, laterId, later);
    RemoveAdded(all, added);
  }

  /** In the list with the new RSVP appended, the page finds the new one. */
  lemma AddedIsFirst(all: seq<RSVP>, added: RSVP, userId: string, tid: string)
    requires forall x :: x in all ==> !IsRsvpFor(x, userId, tid)
    requires IsRsvpFor(added, userId, tid)
    ensures Find(TournamentRsvps(all + [added], tid), ByUser(userId)) == Some(added)
  {
    var once := all + [added];
    forall j | 0 <= j < |all| ensures !PairOf(userId, tid)(once[j]) {
      assert once[j] == all[j] && all[j] in all;
    }
    assert PairOf(userId, tid)(once[|all|]);
    FindInFilter(once, ForTournament(tid), ByUser(userId), PairOf(userId, tid));
  }

  /** Removing by the fresh id takes back exactly the appended RSVP. */
  lemma RemoveAdded(all: seq<RSVP>, added: RSVP)
    requires forall x :: x in all ==> x.id != added.id
    ensures Filter(all + [added], WithoutId(added.id)) == all
  {
    FilterKeepsAll(all, WithoutId(added.id));
    FilterAppend(all, [added], WithoutId(added.id));
    assert Filter([added], WithoutId(added.id)) == [];
  }

  /** Two RSVPs do not share a (user, tournament) pair. */
  predicate DifferentPair(x: RSVP, y: RSVP) {
    !(x.user_id == y.user_id && x.tournament_id == y.tournament_id)
  }

  /** At most one RSVP per (user, tournament) pair: what the toggle expects
      and keeps. */
  predicate OnePerPair(all: seq<RSVP>) {
    Pairwise(all, DifferentPair)
  }

  /** Whether the user has an RSVP among the page's RSVPs: exactly when the
      lookup the toggle makes finds one. */
  function IsRsvpd(view: seq<RSVP>, user: Option<User>): (b: bool)
    ensures b <==> user.Some? && Find(view, ByUser(user.value.id)).Some?
  {
    user.Some? && exists x :: x in view && x.user_id == user.value.id
  }

  /** Whether the RSVP count has reached the tournament's capacity (a
      missing tournament counts as capacity 0, so as full). */
  function IsFull(view: seq<RSVP>, t: Option<Tournament>): (b: bool)
    ensures t.None? ==> b
    ensures |view| == 0 ==> (b <==> t.None? || t.value.max_players <= 0)
  {
    |view| >= (if t.Some? then t.value.max_players else 0)
  }

  /** A join adds exactly one RSVP to the tournament's list, so a tournament
      one place short of capacity is full after it. */
  lemma JoinAddsOne(all: seq<RSVP>, u: User, t: Tournament, freshId: string, now: string)
    requires !IsRsvpd(TournamentRsvps(all, t.id), Some(u))
    ensures var r := Toggle(all, Some(u), Some(t), freshId, now);
      && r.Some?
      && |TournamentRsvps(r.value, t.id)| == |TournamentRsvps(all, t.id)| + 1
      && (IsFull(TournamentRsvps(r.value, t.id), Some(t)) <==> |TournamentRsvps(all, t.id)| + 1 >= t.max_players)
  {
    var added := RSVP(freshId, u.id, t.id, now);
    FindInFilter(all, ForTournament(t.id), ByUser(u.id), PairOf(u.id, t.id));
    assert Toggle(all, Some(u), Some(t), freshId, now) == Some(all + [added]);
    FilterAppend(all, [added], ForTournament(t.id));
    assert Filter([added], ForTournament(t.id)) == [added];
  }

  /** With one RSVP per pair, the toggle flips whether the user has an RSVP
      for the tournament, and one RSVP per pair still holds afterwards. */
  lemma ToggleFlips(all: seq<RSVP>, u: User, t: Tournament, freshId: string, now: string)
    requires OnePerPair(all)
    ensures var r := Toggle(all, Some(u), Some(t), freshId, now);
      && r.Some?
      && OnePerPair(r.value)
      && (IsRsvpd(TournamentRsvps(r.value, t.id), Some(u)) <==> !IsRsvpd(TournamentRsvps(all, t.id), Some(u)))
  {
    var e := Find(TournamentRsvps(all, t.id), ByUser(u.id));
    if e.Some? {
      ToggleRemoves(all, u, t, e.value, freshId, now);
      RemovalFlips(all, u.id, t.id, e.value);
    } else {
      var added := RSVP(freshId, u.id, t.id, now);
      FindInFilter(all, ForTournament(t.id), ByUser(u.id), PairOf(u.id, t.id));
      AppendFlips(all, added);
    }
  }

  /** Removing the user's RSVP for the tournament leaves none for that pair. */
  lemma RemovalFlips(all: seq<RSVP>, userId: string, tid: string, e: RSVP)
    requires OnePerPair(all)
    requires e in all && IsRsvpFor(e, userId, tid)
    ensures var r := Filter(all, WithoutId(e.id));
      OnePerPair(r) && !(exists x :: x in TournamentRsvps(r, tid) && x.user_id == userId)
      && exists x :: x in TournamentRsvps(all, tid) && x.user_id == userId
  {
    var r := Filter(all, WithoutId(e.id));
    assert e in TournamentRsvps(all, tid);
    forall x | x in r && x.user_id == userId ensures x.tournament_id != tid {
      var k :| 0 <= k < |all| && all[k] == x;
      var m :| 0 <= m < |all| && all[m] == e;
      assert k != m;
      assert k < m ==> DifferentPair(all[k], all[m]);
      assert m < k ==> DifferentPair(all[m], all[k]);
    }
    SubseqPairwise(r, all, DifferentPair);
  }

  /** Appending an RSVP for a pair that had none creates it and keeps one per pair. */
  lemma AppendFlips(all: seq<RSVP>, added: RSVP)
    requires OnePerPair(all)
    requires forall x :: x in all ==> DifferentPair(x, added)
    ensures var r := all + [added];
      OnePerPair(r) && exists x :: x in TournamentRsvps(r, added.tournament_id) && x.user_id == added.user_id
    ensures !exists x :: x in TournamentRsvps(all, added.tournament_id) && x.user_id == added.user_id
  {
    var r := all + [added];
    assert added in TournamentRsvps(r, added.tournament_id);
    forall i, j | 0 <= i < j < |r| ensures DifferentPair(r[i], r[j]) {
      assert r[i] == all[i] && all[i] in all;
      if j < |all| {
        assert r[j] == all[j];
      }
    }
  }

  /** The page's RSVP button. */
  datatype RsvpButton =
    | Hidden            // the held user is not an approved member
    | Join              // "RSVP to Tournament"
    | Cancel            // "Cancel RSVP"
    | Full              // "Tournament Full", disabled

  /** The button is shown only to approved members, and only once the
      tournament is found (otherwise the page shows "Tournament not found");
      a member who already has an RSVP can always cancel it; only a member
      without one is blocked, and only when the tournament is full. */
  function Button(view: seq<RSVP>, user: Option<User>, t: Option<Tournament>): (b: RsvpButton)
    ensures b != Hidden <==> t.Some? && user.Some? && user.value.status == Approved
    ensures b != Hidden && IsRsvpd(view, user) ==> b == Cancel
    ensures b == Full <==> b != Hidden && IsFull(view, t) && !IsRsvpd(view, user)
    ensures b == Join <==> b != Hidden && !IsFull(view, t) && !IsRsvpd(view, user)
  {
    if t.None? || user.None? || user.value.status != Approved then Hidden
    else if IsFull(view, t) && !IsRsvpd(view, user) then Full
    else if IsRsvpd(view, user) then Cancel
    else Join
  }

  /** The button's action: the toggle written back to the store, or no
      change when there is nothing to toggle. The page's view is taken from
      the same store. */
  function HandleRsvp(s: Store, user: Option<User>, pageId: string, freshId: string, now: string): (r: Store)
    ensures user.None? || (forall t :: t in GetTournaments(s) ==> t.id != pageId) ==> r == s
    ensures r.(rsvps := s.rsvps) == s
    ensures var v := LoadData(s, pageId);
      user.Some? && v.tournament.Some? ==> Some(GetRSVPs(r)) == Toggle(GetRSVPs(s), user, v.tournament, freshId, now)
  {
    match Toggle(GetRSVPs(s), user, LoadData(s, pageId).tournament, freshId, now)
    case None => s
    case Some(xs) => SaveRSVPs(s, xs)
  }
}

=== FILE: tournament_management.dfy ===
/** The admin tournament list: tournaments shown in date order, and deletion
    of a tournament together with every RSVP that names it. */
module TournamentManagement {
  import opened Seqs
  import opened Types
  import opened Storage
  import opened DateOrder

  /** The list the screen shows: the stored tournaments, sorted by date. */
  function LoadTournaments(s: Store): (r: seq<Tournament>)
    ensures SortedByDate(r)
    ensures multiset(r) == multiset(GetTournaments(s))
  {
    SortByDate(GetTournaments(s))
  }

  function NotId(id: string): Tournament -> bool {
    (t: Tournament) => t.id != id
  }

  function NotForTournament(id: string): RSVP -> bool {
    (x: RSVP) => x.tournament_id != id
  }

  /** A confirmed delete: the shown list without the tournament is written
      back (so storage ends up in date order), then every RSVP naming it is
      removed; other RSVPs keep their order, and no other key changes. */
  function HandleDelete(s: Store, id: string): (r: Store)
    ensures forall t :: t in GetTournaments(r) <==> t in GetTournaments(s) && t.id != id
    ensures forall t :: multiset(GetTournaments(r))[t] == if t.id != id then multiset(GetTournaments(s))[t] else 0
    ensures SortedByDate(GetTournaments(r))
    ensures forall x :: x in GetRSVPs(r) <==> x in GetRSVPs(s) && x.tournament_id != id
    ensures forall x :: multiset(GetRSVPs(r))[x] == if x.tournament_id != id then multiset(GetRSVPs(s))[x] else 0
    ensures Subseq(GetRSVPs(r), GetRSVPs(s))
    ensures r.(tournaments := s.tournaments, rsvps := s.rsvps) == s
  {
    var shown := LoadTournaments(s);
    var kept := Filter(shown, NotId(id));
    FilterKeepsSorted(shown, NotId(id));
    assert forall t :: t in shown <==> t in GetTournaments(s) by {
      forall t ensures t in shown <==> t in GetTournaments(s) {
        assert t in shown <==> t in multiset(shown);
      }
    }
    var s1 := SaveTournaments(s, kept);
    SaveRSVPs(s1, Filter(GetRSVPs(s), NotForTournament(id)))
  }

  /** Deleting an id no tournament and no RSVP carries writes back the
      date-ordered list and the same RSVPs. */
  lemma DeleteUnknownId(s: Store, id: string)
    requires forall t :: t in GetTournaments(s) ==> t.id != id
    requires forall x :: x in GetRSVPs(s) ==> x.tournament_id != id
    ensures GetTournaments(HandleDelete(s, id)) == LoadTournaments(s)
    ensures GetRSVPs(HandleDelete(s, id)) == GetRSVPs(s)
  {
    var shown := LoadTournaments(s);
    forall t | t in shown ensures t.id != id {
      assert t in multiset(shown);
    }
    FilterKeepsAll(shown, NotId(id));
    FilterKeepsAll(GetRSVPs(s), NotForTournament(id));
  }
}

=== FILE: types.dfy ===
/** The club's records: users, tournaments, tournament RSVPs, cash games and
    cash-game RSVPs. Optional tournament fields are Option values; dates are
    instants in milliseconds. */
module Types {
  import opened Wrappers

  /** An account's standing; these four are the only values there are. */
  datatype UserStatus = Pending | Approved | Rejected | Admin

  /** The string that stands for each status in stored data: the encoding of
      the status union. The program trusts parsed JSON as typed and never
      reads a status string itself, so this pair only documents the encoding. */
  function StatusName(s: UserStatus): string {
    match s
    case Pending => "pending"
    case Approved => "approved"
    case Rejected => "rejected"
    case Admin => "admin"
  }

  /** Reads a stored status string; anything other than the four names is not a status. */
  function ParseStatus(name: string): (r: Option<UserStatus>)
    ensures r.Some? <==> name in {"pending", "approved", "rejected", "admin"}
    ensures r.Some? ==> StatusName(r.value) == name
  {
    if name == "pending" then Some(Pending)
    else if name == "approved" then Some(Approved)
    else if name == "rejected" then Some(Rejected)
    else if name == "admin" then Some(Admin)
    else None
  }

  lemma StatusRoundTrip(s: UserStatus)
    ensures ParseStatus(StatusName(s)) == Some(s)
  {
  }

  datatype User = User(
    id: string,
    full_name: string,
    email: string,
    phone: string,
    nickname: string,
    password: string,
    status: UserStatus,
    created_at: string)

  datatype Tournament = Tournament(
    id: string,
    name: string,
    date_time: int,
    location: string,
    buy_in: string,
    blind_structure: string,
    level_times: Option<string>,
    max_players: int,
    created_by: string,
    created_at: string,
    game_type: Option<string>,
    late_registration: Option<string>,
    starting_chips: Option<string>,
    add_on: Option<string>)

  /** A tournament RSVP refers to its user and tournament by id only. */
  datatype RSVP = RSVP(id: string, user_id: string, tournament_id: string, timestamp: string)

  datatype CashGame = CashGame(
    id: string,
    game_type: string,
    stakes: string,
    tables_running: int,
    seats_open: int,
    total_seats: int,
    updated_at: string)

  /** A cash-game waitlist entry, again by ids only. */
  datatype CashGameRSVP = CashGameRSVP(id: string, user_id: string, cash_game_id: string, timestamp: string)
}

=== FILE: user_approvals.dfy ===
/** The admin approvals screen: a status filter over the users, and approve
    and reject actions offered on pending accounts. */
module UserApprovals {
  import opened Wrappers
  import opened Seqs
  import opened Types
  import opened Storage
  import Auth

  function HasId(id: string): User -> bool {
    (u: User) => u.id == id
  }

  function WithStatus(status: UserStatus): User -> User {
    (u: User) => u.(status := status)
  }

  /** Every user with the given id gets the status; all other users are
      returned unchanged and the list keeps its length and order. */
  function SetStatus(users: seq<User>, id: string, status: UserStatus): (r: seq<User>)
    ensures |r| == |users|
    ensures forall i :: 0 <= i < |users| && users[i].id == id ==> r[i] == users[i].(status := status)
    ensures forall i :: 0 <= i < |users| && users[i].id != id ==> r[i] == users[i]
  {
    Update(users, HasId(id), WithStatus(status))
  }

  /** Setting a status twice is setting it once. */
  lemma SetStatusIdempotent(users: seq<User>, id: string, status: UserStatus)
    ensures SetStatus(SetStatus(users, id, status), id, status) == SetStatus(users, id, status)
  {
  }

  /** A confirmed approval, written back over the whole user list. */
  function HandleApprove(s: Store, id: string): (r: Store)
    ensures GetUsers(r) == SetStatus(GetUsers(s), id, Approved)
    ensures r.(users := s.users) == s
  {
    SaveUsers(s, SetStatus(GetUsers(s), id, Approved))
  }

  /** A confirmed rejection, written back over the whole user list. */
  function HandleReject(s: Store, id: string): (r: Store)
    ensures GetUsers(r) == SetStatus(GetUsers(s), id, Rejected)
    ensures r.(users := s.users) == s
  {
    SaveUsers(s, SetStatus(GetUsers(s), id, Rejected))
  }

  function ShownFor(filter: UserStatus): User -> bool {
    (u: User) => u.status == filter && u.status != Admin
  }

  /** The users listed under a filter: those with that status, never an
      admin, in stored order. */
  function FilteredUsers(users: seq<User>, filter: UserStatus): (r: seq<User>)
    ensures forall u :: u in r <==> u in users && u.status == filter && u.status != Admin
    ensures forall u :: multiset(r)[u] == if u.status == filter && u.status != Admin then multiset(users)[u] else 0
    ensures Subseq(r, users)
  {
    Filter(users, ShownFor(filter))
  }

  /** Approve and reject are offered only on pending accounts. */
  predicate ActionsOffered(u: User) {
    u.status == Pending
  }

  /** The actions appear on every listed account under the pending filter
      and on none under any other filter. */
  lemma ActionsOnlyWhenPending(users: seq<User>, filter: UserStatus)
    ensures filter == Pending ==> forall u :: u in FilteredUsers(users, filter) ==> ActionsOffered(u)
    ensures filter != Pending ==> forall u :: u in FilteredUsers(users, filter) ==> !ActionsOffered(u)
  {
  }

  /** Approval moves an account from the pending list to the approved list. */
  lemma ApproveMovesBetweenLists(users: seq<User>, u: User)
    requires u in users && u.status == Pending
    requires forall v :: v in users && v.id == u.id ==> v == u
    ensures u !in FilteredUsers(SetStatus(users, u.id, Approved), Pending)
    ensures u.(status := Approved) in FilteredUsers(SetStatus(users, u.id, Approved), Approved)
  {
    var r := SetStatus(users, u.id, Approved);
    var k :| 0 <= k < |users| && users[k] == u;
    assert r[k] == u.(status := Approved);
    forall j | 0 <= j < |r| ensures r[j] != u {
      if users[j].id == u.id {
        assert r[j].status == Approved;
      } else {
        assert r[j] == users[j];
      }
    }
  }

  /** A pending account whose credentials are the first match cannot log in;
      once approved, the same login succeeds and holds the approved record. */
  lemma ApproveThenLogin(st: Auth.AuthState, email: string, password: string, i: int)
    requires Auth.FirstMatch(GetUsers(st.store), i, email, password)
    requires GetUsers(st.store)[i].status == Pending
    ensures Auth.Login(st, email, password).0 == Auth.Failure(Auth.PendingApproval)
    ensures var u := GetUsers(st.store)[i];
      var st' := st.(store := HandleApprove(st.store, u.id));
      var (outcome, st'') := Auth.Login(st', email, password);
      && outcome == Auth.Success
      && st''.user == Some(u.(status := Approved))
      && GetCurrentUser(st''.store) == Some(u.(status := Approved))
  {
    var users := GetUsers(st.store);
    var u := users[i];
    var st' := st.(store := HandleApprove(st.store, u.id));
    var users' := GetUsers(st'.store);
    assert users'[i] == u.(status := Approved);
    forall j | 0 <= j < i ensures !Auth.HasCredentials(users'[j], email, password) {
      assert !Auth.HasCredentials(users[j], email, password);
    }
    assert Auth.FirstMatch(users', i, email, password);
  }
}

=== FILE: wrappers.dfy ===
/** The optional-value type used throughout the model in place of JavaScript's
    `null` / `undefined`. */
module Wrappers {

  datatype Option<+T> = None | Some(value: T) {

    /** Returns the value held in Some, or `default` for None. */
    function GetOr(default: T): T {
      match this
      case Some(v) => v
      case None => default
    }
  }
}
